=== FILE: README.md ===
# Titanic analyzer, modelled in Dafny

A model of the `Analyzer` class of `src/mypackage/analysis.py`. The class wraps the cleaned Titanic
passenger table and never changes it. It answers four kinds of question:

- a `describe` summary of one column;
- a chi-square test of independence between two categorical columns, with Cramér's V;
- the mean fare and the passenger count per embarkation town and class, as two pivot tables;
- the survival rate per value of a grouping column.

Every method only reads the table, so the model is pure: an `Analyzer` is a datatype holding a `Table`.
Every operation is a function that returns either its result or an `Error`. Calling a method twice
therefore gives the same answer, and no call changes what a later call sees.

The table (`dataset.dfy`) is a map from column names to columns of one common height. Each column
declares its kind (numeric or categorical), and any cell may be missing. The arithmetic is exact over
`real`.

Modules:

- `sums.dfy`, `counting.dfy`, `matrix.dfy`: sums, occurrence counts, first-occurrence deduplication,
  and two-way tables with their margins and transpose.
- `chisquare.dfy`: scipy's `chi2_contingency` as the analyzer uses it, and Cramér's V.
  - The expected frequencies are the row total times the column total over the grand total.
  - At one degree of freedom, scipy's continuity correction moves each observed count half a unit
    toward its expected value.
  - Without degrees of freedom the statistic is 0 and the p-value is 1.
- `stats.dfy`: minimum, maximum, mean, sample variance, sorting, and numpy's linear quartiles.
- `describe.dfy`: pandas' `describe` for numeric and categorical columns.
- `crosstab.dfy`: `pd.crosstab` of two columns.
- `groupby.dfy`: `groupby(...).agg(["mean", "min", "max", "count"])`, `pivot`, and a grouped mean.
- `analysis.dfy`: the analyzer's methods and the checks they make before computing.

Where the original relies on library behaviour, the model follows the code:

- **Empty tables.** pandas' `DataFrame.empty` holds when the table has no rows *or* no columns, so
  both are refused at construction.
- **Cramér's V with one category.** `cramers_v` makes no check when one side of the table has a
  single category. numpy then divides by zero and returns NaN, which the model writes as `None`.
- **Label order.** pandas sorts the labels of `crosstab`, `groupby` and `pivot`. The model keeps
  labels in order of first appearance instead. The crosstab and pivot contracts state only which
  labels appear; the `survival_rate` result and the grouped aggregate table are stated in
  first-appearance order, where pandas sorts by key.

## Model

| member | source | states |
|---|---|---|
| Analysis.NewAnalyzer | src/mypackage/analysis.py:39-43 | construction fails, with `EmptyDataset`, exactly when the table has no rows or no columns; otherwise the analyzer holds the table unchanged |
| Analysis.GetStats | src/mypackage/analysis.py:112-115 | an unknown column is an error naming it; otherwise the summary is numeric exactly when the column is numeric, and it is `DescribeNumeric` of the column's numbers (numeric) or `DescribeCategorical` of its present values (categorical) |
| Analysis.NumericStatsBounds | src/mypackage/analysis.py:112-115 | a numeric summary counts the non-missing cells, at most the number of rows; it has statistics iff that count is positive; min <= 25% <= 50% <= 75% <= max; the mean lies in [min, max]; the variance is non-negative |
| Analysis.CategoricalStatsBounds | src/mypackage/analysis.py:112-115 | a categorical summary counts the non-missing cells, at most the rows; unique <= count, and unique >= 1 when count >= 1; freq <= count |
| Describe.DescribeNumeric | src/mypackage/analysis.py:115 | count is the number of values; statistics exist iff there is a value; mean is `Mean` of the values; min and max are the least and greatest values; 25%, 50% and 75% are numpy's linear percentiles of the sorted values, ordered between min and max; the variance is the sample variance when there are at least two values and absent otherwise, and is non-negative |
| Describe.DescribeCategorical | src/mypackage/analysis.py:115 | unique is the number of distinct values; top and freq exist iff there is a value; top is a value whose count is freq, and no value occurs more often |
| Describe.Mode | src/mypackage/analysis.py:115 | the chosen candidate occurs at least as often as every other candidate |
| Describe.QuartilesOrdered | src/mypackage/analysis.py:115 | on the sorted values: minimum <= 25% <= 50% <= 75% <= maximum |
| Stats.Minimum | src/mypackage/analysis.py:115 | the result is one of the values and no value is smaller |
| Stats.Maximum | src/mypackage/analysis.py:115 | the result is one of the values and no value is larger |
| Stats.Mean | src/mypackage/analysis.py:115 | mean times the number of values is their sum, and the mean lies between the minimum and the maximum |
| Stats.Variance | src/mypackage/analysis.py:115 | the sample variance (divisor n - 1) is non-negative |
| Stats.ConstantVariance | src/mypackage/analysis.py:115 | values that are all equal have that value as their mean and variance 0 |
| Stats.Sort | src/mypackage/analysis.py:115 | the result is sorted and is a permutation of the input |
| Stats.SortEnds | src/mypackage/analysis.py:115 | sorting keeps the length; the first sorted value is the minimum and the last is the maximum |
| Stats.QuartileWithin | src/mypackage/analysis.py:115 | a percentile lies between the order statistic at its position and the next one, and equals it at a whole position |
| Stats.QuartileEnds | src/mypackage/analysis.py:115 | the 0% and 100% percentiles are the first and last sorted values |
| Stats.QuartileStep | src/mypackage/analysis.py:115 | on sorted values each quartile is at most the next |
| Dataset.NumericReals | src/mypackage/analysis.py:115 | in a numeric column there are as many numbers to summarise as non-missing cells |
| Analysis.CramersV | src/mypackage/analysis.py:149-158 | a table with no cell is refused; otherwise V squared times n * min_dim equals chi2, where n is the sum of all cells and min_dim is the smaller dimension minus one; V is undefined exactly when n * min_dim is 0 |
| ChiSquare.CramersVSquared | src/mypackage/analysis.py:154-158 | V squared times n * min_dim is chi2; it is undefined exactly when n * min_dim is 0 |
| ChiSquare.CramersVRange | src/mypackage/analysis.py:154-158 | for a table of counts, V squared is undefined exactly when min_dim is 0, and otherwise lies in [0, 1] |
| ChiSquare.StatisticBound | src/mypackage/analysis.py:217-219 | chi2 <= min_dim * n, and n > 0 |
| ChiSquare.StatisticBounds | src/mypackage/analysis.py:217 | with degrees of freedom, chi2 <= (c - 1) n and chi2 <= (r - 1) n |
| ChiSquare.PearsonBounds | src/mypackage/analysis.py:217 | the uncorrected statistic is at most (c - 1) n and at most (r - 1) n |
| ChiSquare.StatisticAtMostPearson | src/mypackage/analysis.py:217 | the continuity correction never increases the statistic |
| ChiSquare.CorrectionNeverIncreases | src/mypackage/analysis.py:217 | each corrected cell term is at most the uncorrected one |
| ChiSquare.YatesCorrected | src/mypackage/analysis.py:217 | the corrected count is half a unit closer to the expected value, or equal to it when it was closer than that |
| ChiSquare.Statistic | src/mypackage/analysis.py:217 | the statistic is non-negative |
| ChiSquare.ExpectedFromRowSums | src/mypackage/analysis.py:217 | the expected frequencies have the observed row totals |
| ChiSquare.ExpectedTotal | src/mypackage/analysis.py:217 | the expected frequencies have the observed grand total |
| ChiSquare.ExpectedTranspose | src/mypackage/analysis.py:217 | the expected frequencies of the transposed table are the transposed expected frequencies |
| ChiSquare.StatisticTranspose | src/mypackage/analysis.py:217 | transposing the table leaves chi2 unchanged |
| Crosstab.CrossTab | src/mypackage/analysis.py:211 | row and column labels are the distinct first and second values of the pairs, without repetition; the counts form a rows-by-columns matrix |
| Crosstab.TallyRowSums | src/mypackage/analysis.py:211 | each row total is the number of pairs with that row label |
| Crosstab.TallyColSums | src/mypackage/analysis.py:211 | each column total is the number of pairs with that column label |
| Crosstab.CrossTabTotal | src/mypackage/analysis.py:211 | the counts add up to the number of rows where both values are present |
| Crosstab.CrossTabEmpty | src/mypackage/analysis.py:211-213 | the table has no row, and no column, exactly when no row has both values |
| Crosstab.CrossTabObservable | src/mypackage/analysis.py:211-217 | a non-empty crosstab has non-negative counts and positive margins, which scipy's test needs |
| Crosstab.CrossTabSwap | src/mypackage/analysis.py:211 | swapping the two variables swaps the labels and transposes the counts |
| Dataset.PresentPairsSwap | src/mypackage/analysis.py:211 | pairing the columns the other way round swaps every pair |
| Analysis.ChiSquareTest | src/mypackage/analysis.py:207-213 | the first column is checked before the second; an unknown column is an error naming it; the test fails with `EmptyContingencyTable` exactly when no row has both values; with both columns present the result is `TestPairs` of the rows having both values |
| Analysis.TestPairs | src/mypackage/analysis.py:211-227 | the test fails exactly on no pairs; otherwise chi2 is `Statistic` of the cross-tabulation, p is 1 when the degrees of freedom are 0 and the upper tail of chi2 otherwise, V² is `CramersVSquared` of chi2, the table total and the smaller dimension minus one, and the significance message is chosen exactly when p < 0.05 |
| Analysis.TestRange | src/mypackage/analysis.py:211-227 | n is the number of pairs; chi2 >= 0; p is in [0, 1]; chi2 = 0 and p = 1 when either side has one category; V squared is undefined exactly then and otherwise lies in [0, 1] |
| Analysis.TestSwap | src/mypackage/analysis.py:211-219 | swapping the pairs gives the same chi2, p and V |
| Analysis.ChiSquareSymmetric | src/mypackage/analysis.py:207-227 | `chi_square_test(a, b)` equals `chi_square_test(b, a)` when both columns exist |
| Analysis.ChiSquareRange | src/mypackage/analysis.py:217-227 | a successful test has chi2 >= 0, p in [0, 1], V squared in [0, 1], and is significant iff p < 0.05 |
| Analysis.FareObservations | src/mypackage/analysis.py:262 | a missing `embark_town`, `pclass` or `fare` is an error naming it, in that order; a non-numeric fare is an error; otherwise each row with both keys present is kept, in row order, carrying its own fare |
| Analysis.KeysOfJoined | src/mypackage/analysis.py:262 | grouping on two columns keeps exactly the key pairs that the cross tabulation of those columns sees |
| Grouping.Groups | src/mypackage/analysis.py:262 | the groups are the distinct keys, without repetition |
| Grouping.ValuesCount | src/mypackage/analysis.py:264 | a group's number of fares is the number of its rows with a present fare |
| Grouping.ValuesOfRows | src/mypackage/analysis.py:264 | every value aggregated for a group comes from one of its rows |
| Grouping.Aggregate | src/mypackage/analysis.py:264 | count is the number of values; with at least one value, mean is their mean and min and max their least and greatest value (so min <= mean <= max and mean times count is the sum); with none, mean, min and max are absent |
| Grouping.GroupedStats | src/mypackage/analysis.py:264 | the flattened aggregate table has one row per distinct key, keys in the order the groups are listed |
| Dataset.Observations | src/mypackage/analysis.py:262 | the rows the grouping keeps pair a key with the row's number; there are at most as many as table rows |
| Grouping.LookupGrouped | src/mypackage/analysis.py:264 | a key has an aggregate row iff it occurs, and that row aggregates exactly that key's values |
| Grouping.Lookup | src/mypackage/analysis.py:264-266 | the lookup finds the row with the given key, and fails exactly when no row has it |
| Grouping.PivotOf | src/mypackage/analysis.py:266 | the index and column labels have no repetition; the cells form an index-by-columns matrix |
| Grouping.PivotLabels | src/mypackage/analysis.py:266 | index labels are exactly the towns of the grouped keys, column labels exactly their classes |
| Grouping.MeanPivotCell | src/mypackage/analysis.py:264-266 | a mean cell is filled iff its pair occurs with at least one fare, and then holds that group's mean |
| Grouping.CountPivotCell | src/mypackage/analysis.py:304-307 | a count cell is filled iff its pair occurs, and then holds the number of that pair's rows with a fare |
| Grouping.PivotsAgree | src/mypackage/analysis.py:262-307 | the two pivots share labels, and a mean is shown exactly where the count is positive |
| Grouping.CountPivotTotal | src/mypackage/analysis.py:304-307 | the count pivot, with empty cells read as 0, adds up to the number of rows with both keys and a fare |
| Analysis.CcfCategorizationMean | src/mypackage/analysis.py:262-268 | fails exactly on a missing or non-numeric input column; the rows are exactly the towns, and the columns exactly the classes, that occur together in a row |
| Analysis.CcfCategorizationCount | src/mypackage/analysis.py:302-308 | fails exactly as the mean pivot does; the same towns and classes label its rows and columns |
| Analysis.CcfPivotsAgree | src/mypackage/analysis.py:262-307 | both pivots have the same labels; a mean is present exactly where the count is positive |
| Analysis.CcfMeanWithinGroup | src/mypackage/analysis.py:264-266 | a mean fare lies between its group's least and greatest fare, and every fare averaged is the fare of a table row with that town and class |
| Analysis.CcfCells | src/mypackage/analysis.py:262-307 | for a (town, class) pair that occurs in the table, the count cell is the number of its rows with a fare and the mean cell is the mean of those fares (absent without one); a pair that never occurs has neither; both pivots share labels |
| Analysis.CcfCountTotal | src/mypackage/analysis.py:304-307 | the counts, empty cells read as 0, add up to the number of table rows with town, class and fare present, at most the number of rows |
| Analysis.SurvivalRate | src/mypackage/analysis.py:353-357 | an unknown grouping column, then a missing or non-numeric `survived`, is an error; otherwise one entry per distinct present value of the column, without repetition |
| Analysis.SurvivalRateOfGroup | src/mypackage/analysis.py:356 | each group's rate is the mean of the known `survived` values on the table rows of that group, absent when there is none |
| Analysis.KeysOfObservations | src/mypackage/analysis.py:356 | grouping keeps exactly the rows whose group value is present, in row order |
| Analysis.ObservedIndicators | src/mypackage/analysis.py:356 | outcomes coded 0 and 1 remain 0 or 1 after grouping |
| Analysis.SurvivalRateRange | src/mypackage/analysis.py:356 | with outcomes coded 0/1, a group's rate exists iff one of its rows has a known outcome, and equals survivors / known outcomes on its rows, in [0, 1] |
| Grouping.ValuesOfObservations | src/mypackage/analysis.py:262-264 | after grouping, a group's values are exactly the numbers on the table rows with that key, in row order |
| Grouping.FilledKeysOfObservations | src/mypackage/analysis.py:304-307 | the kept rows with a value are as many as the table rows with a key and a number |
| Dataset.RealsFrom | src/mypackage/analysis.py:115 | every number summarised is held by some cell of the column |
| Grouping.GroupMeans | src/mypackage/analysis.py:356 | one entry per group, labelled with the groups in order |
| Grouping.GroupMeanOfIndicators | src/mypackage/analysis.py:356 | the mean of 0/1 outcomes is the share of ones, in [0, 1], and exists iff the group has a known outcome |
| Stats.SumOfIndicators | src/mypackage/analysis.py:356 | a sum of zeros and ones is the number of ones |

## Left out

- The chi-square p-value is not computed; `upperTail(chi2, dof)` stands for scipy's survival function. Its range [0, 1] is an assumption (`IsTail`), not proved.
- Square roots are not modelled: `cramers_v` is modelled as V squared and `std` as the variance. V is in [0, 1] iff V squared is.
- Floating point is not modelled; arithmetic is exact over the reals, so results agree with the original only up to rounding.
- The printed significance messages are not modelled. The branch they take is the `significant` field; the returned chi2, p and V do not depend on it.
- The script code that reads `cleaned_data.csv` and builds an analyzer at import time is not modelled: it is I/O, not the analyzer.
- `organize_data.py` and `visualization.py` are not part of this model.
- Label order: pandas sorts the labels of `crosstab`, `groupby` and `pivot`, while the model keeps first-appearance order. The crosstab and pivot contracts state only which labels appear; the `survival_rate` result (`Analysis.SurvivalRate`) and the grouped aggregate table (`Grouping.GroupedStats`) are stated in first-appearance order, where pandas sorts by key. chi2, p and V do not depend on the order.
- Describe.DescribeCategorical: the tie rule for `top` is not stated; the model picks a most frequent value, and pandas' own choice among tied values is left open.
- The `isinstance` checks on the data and on `chi2` are carried by the types: an `Analyzer` always holds a table, and `chi2` is a real.
- Python exceptions raised inside pandas are modelled as errors of the `Error` datatype: a missing column (`KeyError`) and aggregating a non-numeric fare or outcome (`TypeError`). Their messages are not modelled.
- Cell values are numbers or strings compared by equality; dtype inference and the other column types (booleans, categories, dates) are not modelled.

=== FILE: analysis.dfy ===
/** The Analyzer of the Titanic exploratory analysis: a read-only table and
    the summaries, association test, fare pivots and survival rates computed
    from it. Every failed precondition check of the original becomes an
    `Error`. */
module Analysis {
  import opened Wrappers
  import opened Counting
  import opened Matrix
  import opened ChiSquare
  import opened Stats
  import opened Dataset
  import opened Describe
  import opened Crosstab
  import opened Grouping

  datatype Error =
    | EmptyDataset
    | UnknownColumn(name: string)
    | EmptyContingencyTable
    | NotNumeric(name: string)

  /** The analyzer only ever reads its table. Only `NewAnalyzer` builds one,
      so its table is never empty; the lemmas below hold for every table. */
  datatype Analyzer = Analyzer(data: Table)

  const Town := "embark_town"
  const Class := "pclass"
  const Fare := "fare"
  const Survived := "survived"

  /** Significance level of the association test. */
  const Alpha := 0.05

  /** Construction refuses an empty table and otherwise keeps it as given. */
  function NewAnalyzer(data: Table): (r: Result<Analyzer, Error>)
    ensures r.Failure? <==> IsEmpty(data)
    ensures r.Failure? ==> r.error == EmptyDataset
    ensures r.Success? ==> r.value.data == data
  {
    if IsEmpty(data) then Failure(EmptyDataset) else Success(Analyzer(data))
  }

  // ---- get_stats ----------------------------------------------------------

  datatype Summary = NumericColumn(numeric: NumericSummary) | CategoricalColumn(categorical: CategoricalSummary)

  function GetStats(a: Analyzer, column: string): (r: Result<Summary, Error>)
    ensures r.Failure? <==> !HasColumn(a.data, column)
    ensures r.Failure? ==> r.error == UnknownColumn(column)
    ensures r.Success? ==> (r.value.NumericColumn? <==> a.data.columns[column].kind == Numeric)
    ensures r.Success? && r.value.NumericColumn? ==>
      r.value.numeric == DescribeNumeric(Reals(Cells(a.data, column)))
    ensures r.Success? && r.value.CategoricalColumn? ==>
      r.value.categorical == DescribeCategorical(Present(Cells(a.data, column)))
  {
    if !HasColumn(a.data, column) then Failure(UnknownColumn(column))
    else
      var col := a.data.columns[column];
      if col.kind == Numeric then Success(NumericColumn(DescribeNumeric(Reals(col.cells))))
      else Success(CategoricalColumn(DescribeCategorical(Present(col.cells))))
  }

  /** A numeric summary counts the non-missing cells, at most the number of
      rows, and orders min <= 25% <= 50% <= 75% <= max with the mean between
      min and max. */
  lemma NumericStatsBounds(a: Analyzer, column: string)
    requires GetStats(a, column).Success? && GetStats(a, column).value.NumericColumn?
    ensures var d := GetStats(a, column).value.numeric;
      && d.count == |Present(Cells(a.data, column))| <= a.data.height
      && (d.stats.Some? <==> d.count > 0)
      && (d.stats.Some? ==> var st := d.stats.value;
            && st.min <= st.q1 <= st.median <= st.q3 <= st.max
            && st.min <= st.mean <= st.max
            && (st.variance.Some? ==> 0.0 <= st.variance.value))
  {
    var col := a.data.columns[column];
    assert Fits(col, a.data.height);
    NumericReals(col.cells);
  }

  /** A categorical summary has freq <= count <= rows, and at least one
      category as soon as there is a value. */
  lemma CategoricalStatsBounds(a: Analyzer, column: string)
    requires GetStats(a, column).Success? && GetStats(a, column).value.CategoricalColumn?
    ensures var d := GetStats(a, column).value.categorical;
      && d.count == |Present(Cells(a.data, column))| <= a.data.height
      && d.unique <= d.count
      && (d.count >= 1 ==> d.unique >= 1)
      && (d.freq.Some? ==> d.freq.value <= d.count)
  {
  }

  // ---- cramers_v ----------------------------------------------------------

  /** V squared for `chi2` and a contingency table: refused when the table
      has no cell; otherwise chi2 / (n min_dim) with n the sum of all cells,
      None where that division is undefined. */
  function CramersV(chi2: real, t: Contingency): (r: Result<Option<real>, Error>)
    requires IsMatrix(t.counts, |t.rows|, |t.cols|)
    ensures r.Failure? <==> |t.rows| == 0 || |t.cols| == 0
    ensures r.Failure? ==> r.error == EmptyContingencyTable
    ensures r.Success? ==>
      var n, m := Total(t.counts), MinDim(|t.rows|, |t.cols|);
      && (r.value.None? <==> n * m as real == 0.0)
      && (r.value.Some? ==> r.value.value * (n * m as real) == chi2)
  {
    if |t.rows| == 0 || |t.cols| == 0 then Failure(EmptyContingencyTable)
    else Success(CramersVSquared(chi2, Total(t.counts), MinDim(|t.rows|, |t.cols|)))
  }

  // ---- chi_square_test ----------------------------------------------------

  /** The returned chi2, p-value and V squared, with the significance
      decision the original prints. */
  datatype Association = Association(chi2: real, p: real, vSquared: Option<real>, significant: bool)

  /** A p-value source: the upper tail of the chi-square distribution, which
      lies in [0, 1]. */
  ghost predicate IsTail(upperTail: (real, nat) -> real)
  {
    forall chi2, dof :: 0.0 <= upperTail(chi2, dof) <= 1.0
  }

  function Pairs(a: Analyzer, c1: string, c2: string): (ps: seq<(Value, Value)>)
    requires HasColumn(a.data, c1) && HasColumn(a.data, c2)
    ensures |ps| <= a.data.height
  {
    PresentPairs(Cells(a.data, c1), Cells(a.data, c2))
  }

  /** The association test of two columns; `upperTail(chi2, dof)` stands for
      the chi-square survival function. Columns are looked up in argument
      order, then the cross tabulation must have a cell. */
  function ChiSquareTest(a: Analyzer, c1: string, c2: string, upperTail: (real, nat) -> real): (r: Result<Association, Error>)
    ensures !HasColumn(a.data, c1) ==> r == Failure(UnknownColumn(c1))
    ensures HasColumn(a.data, c1) && !HasColumn(a.data, c2) ==> r == Failure(UnknownColumn(c2))
    ensures HasColumn(a.data, c1) && HasColumn(a.data, c2) ==>
      && r == TestPairs(Pairs(a, c1, c2), upperTail)
      && (r.Failure? <==> |Pairs(a, c1, c2)| == 0)
      && (r.Failure? ==> r.error == EmptyContingencyTable)
  {
    if !HasColumn(a.data, c1) then Failure(UnknownColumn(c1))
    else if !HasColumn(a.data, c2) then Failure(UnknownColumn(c2))
    else TestPairs(Pairs(a, c1, c2), upperTail)
  }

  /** The test on the rows where both values are present: the statistic of
      their cross tabulation with the continuity correction scipy applies at
      one degree of freedom, p = 1 without degrees of freedom, Cramér's V
      squared, and the branch the significance message takes. */
  function TestPairs(ps: seq<(Value, Value)>, upperTail: (real, nat) -> real): (r: Result<Association, Error>)
    ensures r.Failure? <==> |ps| == 0
    ensures r.Failure? ==> r.error == EmptyContingencyTable
    ensures r.Success? ==> (r.value.significant <==> r.value.p < Alpha)
    ensures r.Success? ==> (
      CrossTabObservable(ps);
      var t := CrossTab(ps);
      var rows, cols := |t.rows|, |t.cols|;
      && r.value.chi2 == Statistic(t.counts, rows, cols)
      && r.value.p == (if Dof(rows, cols) == 0 then 1.0 else upperTail(r.value.chi2, Dof(rows, cols)))
      && r.value.vSquared == CramersVSquared(r.value.chi2, Total(t.counts), MinDim(rows, cols)))
  {
    var t := CrossTab(ps);
    CrossTabEmpty(ps);
    if |t.rows| == 0 || |t.cols| == 0 then Failure(EmptyContingencyTable)
    else
      CrossTabObservable(ps);
      var r, c := |t.rows|, |t.cols|;
      var chi2 := Statistic(t.counts, r, c);
      var p := if Dof(r, c) == 0 then 1.0 else upperTail(chi2, Dof(r, c));
      Success(Association(chi2, p, CramersV(chi2, t).value, p < Alpha))
  }

  /** What the test promises: chi2 >= 0 and 0 at no degree of freedom (one
      category on either side), a p-value in [0, 1], and V squared in [0, 1],
      undefined exactly when one side has a single category; n is the number
      of rows with both values. */
  lemma TestRange(ps: seq<(Value, Value)>, upperTail: (real, nat) -> real)
    requires IsTail(upperTail) && |ps| > 0
    ensures var t := CrossTab(ps);
      && 0 < |t.rows| && 0 < |t.cols|
      && Total(t.counts) == |ps| as real
      && var r := TestPairs(ps, upperTail);
      && r.Success?
      && 0.0 <= r.value.chi2
      && 0.0 <= r.value.p <= 1.0
      && (|t.rows| == 1 || |t.cols| == 1 ==> r.value.chi2 == 0.0 && r.value.p == 1.0)
      && (r.value.vSquared.None? <==> |t.rows| == 1 || |t.cols| == 1)
      && (r.value.vSquared.Some? ==> 0.0 <= r.value.vSquared.value <= 1.0)
  {
    var t := CrossTab(ps);
    CrossTabEmpty(ps);
    CrossTabObservable(ps);
    CrossTabTotal(ps);
    CramersVRange(t.counts, |t.rows|, |t.cols|);
  }

  /** Swapping the two variables transposes the cross tabulation and leaves
      chi2, p and V unchanged. */
  lemma TestSwap(ps: seq<(Value, Value)>, upperTail: (real, nat) -> real)
    ensures TestPairs(Swapped(ps), upperTail) == TestPairs(ps, upperTail)
  {
    if |ps| > 0 {
      var t := CrossTab(ps);
      var r, c := |t.rows|, |t.cols|;
      CrossTabEmpty(ps);
      CrossTabSwap(ps);
      CrossTabObservable(ps);
      StatisticTranspose(t.counts, r, c);
      TotalTranspose(t.counts, c);
      DimensionsSwap(r, c);
    }
  }

  lemma DimensionsSwap(r: nat, c: nat)
    requires 0 < r && 0 < c
    ensures Dof(c, r) == Dof(r, c) && MinDim(c, r) == MinDim(r, c)
  {
  }

  lemma ChiSquareSymmetric(a: Analyzer, c1: string, c2: string, upperTail: (real, nat) -> real)
    requires HasColumn(a.data, c1) && HasColumn(a.data, c2)
    ensures ChiSquareTest(a, c1, c2, upperTail) == ChiSquareTest(a, c2, c1, upperTail)
  {
    PresentPairsSwap(Cells(a.data, c1), Cells(a.data, c2));
    TestSwap(Pairs(a, c1, c2), upperTail);
  }

  lemma ChiSquareRange(a: Analyzer, c1: string, c2: string, upperTail: (real, nat) -> real)
    requires IsTail(upperTail)
    requires ChiSquareTest(a, c1, c2, upperTail).Success?
    ensures var r := ChiSquareTest(a, c1, c2, upperTail).value;
      && 0.0 <= r.chi2
      && 0.0 <= r.p <= 1.0
      && (r.significant <==> r.p < Alpha)
      && (r.vSquared.Some? ==> 0.0 <= r.vSquared.value <= 1.0)
  {
    TestRange(Pairs(a, c1, c2), upperTail);
  }

  // ---- ccf_categorization_mean / ccf_categorization_count ------------------

  /** The rows grouped by (embark_town, pclass), each with its fare: rows
      missing either key are dropped. A missing column, or a fare column
      that does not hold numbers, is an error. */
  function FareObservations(a: Analyzer): (r: Result<seq<((Value, Value), Option<real>)>, Error>)
    ensures r.Failure? <==>
      !HasColumn(a.data, Town) || !HasColumn(a.data, Class) || !HasColumn(a.data, Fare)
      || a.data.columns[Fare].kind != Numeric
    ensures !HasColumn(a.data, Town) ==> r == Failure(UnknownColumn(Town))
    ensures HasColumn(a.data, Town) && !HasColumn(a.data, Class) ==> r == Failure(UnknownColumn(Class))
    ensures HasColumn(a.data, Town) && HasColumn(a.data, Class) && !HasColumn(a.data, Fare) ==>
      r == Failure(UnknownColumn(Fare))
    ensures r.Failure? && HasColumn(a.data, Town) && HasColumn(a.data, Class) && HasColumn(a.data, Fare) ==>
      r.error == NotNumeric(Fare)
    ensures r.Success? ==>
      && r.value == Observations(JoinKeys(Cells(a.data, Town), Cells(a.data, Class)), Cells(a.data, Fare))
      && Firsts(r.value) == PresentPairs(Cells(a.data, Town), Cells(a.data, Class))
  {
    var t := a.data;
    if !HasColumn(t, Town) then Failure(UnknownColumn(Town))
    else if !HasColumn(t, Class) then Failure(UnknownColumn(Class))
    else if !HasColumn(t, Fare) then Failure(UnknownColumn(Fare))
    else if t.columns[Fare].kind != Numeric then Failure(NotNumeric(Fare))
    else
      var keys := JoinKeys(Cells(t, Town), Cells(t, Class));
      KeysOfJoined(Cells(t, Town), Cells(t, Class), Cells(t, Fare));
      Success(Observations(keys, Cells(t, Fare)))
  }

  /** Mean fare per embarkation town (rows) and class (columns). */
  function CcfCategorizationMean(a: Analyzer): (r: Result<Pivot<real>, Error>)
    ensures r.Failure? <==> FareObservations(a).Failure?
    ensures r.Success? ==>
      var ps := PresentPairs(Cells(a.data, Town), Cells(a.data, Class));
      && (forall x :: x in r.value.index <==> x in Firsts(ps))
      && (forall y :: y in r.value.columns <==> y in Seconds(ps))
  {
    match FareObservations(a)
    case Failure(e) => Failure(e)
    case Success(obs) =>
      PivotLabels(obs, MeanOf);
      Success(PivotOf(GroupedStats(obs), MeanOf))
  }

  /** Number of known fares per embarkation town (rows) and class (columns). */
  function CcfCategorizationCount(a: Analyzer): (r: Result<Pivot<nat>, Error>)
    ensures r.Failure? <==> FareObservations(a).Failure?
    ensures r.Success? ==>
      var ps := PresentPairs(Cells(a.data, Town), Cells(a.data, Class));
      && (forall x :: x in r.value.index <==> x in Firsts(ps))
      && (forall y :: y in r.value.columns <==> y in Seconds(ps))
  {
    match FareObservations(a)
    case Failure(e) => Failure(e)
    case Success(obs) =>
      PivotLabels(obs, CountOf);
      Success(PivotOf(GroupedStats(obs), CountOf))
  }

  /** Both pivots come from the same grouping: same labels, and a mean is
      shown exactly where the count is positive. */
  lemma CcfPivotsAgree(a: Analyzer, i: nat, j: nat)
    requires CcfCategorizationMean(a).Success?
    requires var p := CcfCategorizationMean(a).value; i < |p.index| && j < |p.columns|
    ensures var p, q := CcfCategorizationMean(a).value, CcfCategorizationCount(a).value;
      && p.index == q.index && p.columns == q.columns
      && (p.cells[i][j].Some? <==> q.cells[i][j].Some? && q.cells[i][j].value > 0)
  {
    PivotsAgree(FareObservations(a).value, i, j);
  }

  /** The fares of one (town, class) group, read off the table: the
      numbers in the fare column on the rows with that town and that class,
      in row order. */
  function GroupFares(a: Analyzer, key: (Value, Value)): (xs: seq<real>)
    requires HasColumn(a.data, Town) && HasColumn(a.data, Class) && HasColumn(a.data, Fare)
    ensures |xs| <= a.data.height
  {
    Reals(GroupCells(JoinKeys(Cells(a.data, Town), Cells(a.data, Class)), Cells(a.data, Fare), key))
  }

  /** Each pivot cell against the table: a (town, class) pair that occurs
      in some row has a count cell holding the number of its rows with a
      fare, and a mean cell holding the mean of those fares when there is
      one; a pair that never occurs has neither. */
  lemma CcfCells(a: Analyzer, i: nat, j: nat)
    requires CcfCategorizationMean(a).Success?
    requires var p := CcfCategorizationMean(a).value; i < |p.index| && j < |p.columns|
    ensures var p, q := CcfCategorizationMean(a).value, CcfCategorizationCount(a).value;
      var key := (p.index[i], p.columns[j]);
      var occurs := key in PresentPairs(Cells(a.data, Town), Cells(a.data, Class));
      var xs := GroupFares(a, key);
      && q.index == p.index && q.columns == p.columns
      && q.cells[i][j] == (if occurs then Some(|xs|) else None)
      && p.cells[i][j] == (if occurs && |xs| > 0 then Some(Mean(xs)) else None)
  {
    var obs := FareObservations(a).value;
    var p := CcfCategorizationMean(a).value;
    var key := (p.index[i], p.columns[j]);
    PivotsAgree(obs, i, j);
    CountPivotCell(obs, i, j);
    MeanPivotCell(obs, i, j);
    ValuesCount(obs, key);
    ValuesOfObservations(JoinKeys(Cells(a.data, Town), Cells(a.data, Class)), Cells(a.data, Fare), key);
  }

  /** Row `k` has town `key.0`, class `key.1` and fare `x`. */
  predicate RowAt(a: Analyzer, k: nat, key: (Value, Value), x: real)
    requires HasColumn(a.data, Town) && HasColumn(a.data, Class) && HasColumn(a.data, Fare)
  {
    && k < a.data.height
    && Cells(a.data, Town)[k] == Some(key.0)
    && Cells(a.data, Class)[k] == Some(key.1)
    && Cells(a.data, Fare)[k] == Some(Num(x))
  }

  /** Some row has town `key.0`, class `key.1` and fare `x`. */
  predicate RowWithFare(a: Analyzer, key: (Value, Value), x: real)
    requires HasColumn(a.data, Town) && HasColumn(a.data, Class) && HasColumn(a.data, Fare)
  {
    exists k: nat | k < a.data.height :: RowAt(a, k, key, x)
  }

  /** A mean fare lies between the smallest and the largest fare of its
      group, and every fare it averages is the fare of a row with that town
      and class. */
  lemma CcfMeanWithinGroup(a: Analyzer, i: nat, j: nat)
    requires CcfCategorizationMean(a).Success?
    requires var p := CcfCategorizationMean(a).value; i < |p.index| && j < |p.columns|
    ensures var p := CcfCategorizationMean(a).value;
      var key := (p.index[i], p.columns[j]);
      var xs := GroupFares(a, key);
      && (p.cells[i][j].Some? ==> |xs| > 0 && Minimum(xs) <= p.cells[i][j].value <= Maximum(xs))
      && (forall x :: x in xs ==> RowWithFare(a, key, x))
  {
    CcfCells(a, i, j);
    var p := CcfCategorizationMean(a).value;
    var key := (p.index[i], p.columns[j]);
    var keys := JoinKeys(Cells(a.data, Town), Cells(a.data, Class));
    var cells := GroupCells(keys, Cells(a.data, Fare), key);
    forall x | x in GroupFares(a, key)
      ensures RowWithFare(a, key, x)
    {
      RealsFrom(cells, x);
      var k :| 0 <= k < |cells| && cells[k] == Some(Num(x));
      assert keys[k] == Some(key);
      assert RowAt(a, k, key, x);
    }
  }

  /** The count pivot, with empty cells read as 0, adds up to the number of
      rows whose town, class and fare are all known, at most the number of
      rows. */
  lemma CcfCountTotal(a: Analyzer)
    requires CcfCategorizationCount(a).Success?
    ensures var q := CcfCategorizationCount(a).value;
      var known := Reals(KeyedCells(JoinKeys(Cells(a.data, Town), Cells(a.data, Class)), Cells(a.data, Fare)));
      && Total(Filled(q.cells, |q.index|, |q.columns|)) == |known| as real
      && |known| <= a.data.height
  {
    CountPivotTotal(FareObservations(a).value);
    FilledKeysOfObservations(JoinKeys(Cells(a.data, Town), Cells(a.data, Class)), Cells(a.data, Fare));
  }

  // ---- survival_rate ------------------------------------------------------

  /** Mean of `survived` per value of the grouping column, groups in order
      of first appearance; rows missing the group value are dropped, and a
      missing outcome is skipped by the mean. */
  function SurvivalRate(a: Analyzer, column: string): (r: Result<seq<(Value, Option<real>)>, Error>)
    ensures r.Failure? <==>
      !HasColumn(a.data, column) || !HasColumn(a.data, Survived) || a.data.columns[Survived].kind != Numeric
    ensures !HasColumn(a.data, column) ==> r == Failure(UnknownColumn(column))
    ensures HasColumn(a.data, column) && !HasColumn(a.data, Survived) ==> r == Failure(UnknownColumn(Survived))
    ensures r.Failure? && HasColumn(a.data, column) && HasColumn(a.data, Survived) ==>
      r.error == NotNumeric(Survived)
    ensures r.Success? ==>
      && r.value == GroupMeans(Observations(Cells(a.data, column), Cells(a.data, Survived)))
      && NoDuplicates(Firsts(r.value))
      && (forall g :: g in Firsts(r.value) <==> Some(g) in Cells(a.data, column))
  {
    var t := a.data;
    if !HasColumn(t, column) then Failure(UnknownColumn(column))
    else if !HasColumn(t, Survived) then Failure(UnknownColumn(Survived))
    else if t.columns[Survived].kind != Numeric then Failure(NotNumeric(Survived))
    else
      var obs := Observations(Cells(t, column), Cells(t, Survived));
      KeysOfObservations(Cells(t, column), Cells(t, Survived));
      var means := GroupMeans(obs);
      assert Firsts(means) == Groups(obs);
      Success(means)
  }

  /** The `survived` numbers on the rows of group `g`, in row order. */
  function Outcomes(a: Analyzer, column: string, g: Value): (xs: seq<real>)
    requires HasColumn(a.data, column) && HasColumn(a.data, Survived)
    ensures |xs| <= a.data.height
  {
    Reals(GroupCells(Cells(a.data, column), Cells(a.data, Survived), g))
  }

  /** Each group's rate is the mean of the known outcomes on that group's
      rows, and is undefined for a group without one. */
  lemma SurvivalRateOfGroup(a: Analyzer, column: string, i: nat)
    requires SurvivalRate(a, column).Success? && i < |SurvivalRate(a, column).value|
    ensures var (g, rate) := SurvivalRate(a, column).value[i];
      var xs := Outcomes(a, column, g);
      && Some(g) in Cells(a.data, column)
      && rate == if |xs| > 0 then Some(Mean(xs)) else None
  {
    var g := SurvivalRate(a, column).value[i].0;
    ValuesOfObservations(Cells(a.data, column), Cells(a.data, Survived), g);
  }

  /** With outcomes coded 0 and 1, each group's rate is the share of
      survivors among its rows with a known outcome, in [0, 1], and is
      undefined only for a group without a known outcome. */
  lemma SurvivalRateRange(a: Analyzer, column: string, i: nat)
    requires SurvivalRate(a, column).Success? && i < |SurvivalRate(a, column).value|
    requires forall k :: 0 <= k < a.data.height ==>
      Cells(a.data, Survived)[k] in {None, Some(Num(0.0)), Some(Num(1.0))}
    ensures var (g, rate) := SurvivalRate(a, column).value[i];
      var xs := Outcomes(a, column, g);
      && (rate.Some? <==> |xs| > 0)
      && (rate.Some? ==> rate.value == Count(xs, 1.0) as real / |xs| as real && 0.0 <= rate.value <= 1.0)
  {
    var obs := Observations(Cells(a.data, column), Cells(a.data, Survived));
    var g := SurvivalRate(a, column).value[i].0;
    ObservedIndicators(Cells(a.data, column), Cells(a.data, Survived));
    GroupMeanOfIndicators(obs, i);
    ValuesOfObservations(Cells(a.data, column), Cells(a.data, Survived), g);
  }

  // ---- rows kept by groupby ----------------------------------------------

  /** Grouping on one column keeps the rows whose group value is present. */
  lemma {:induction false} KeysOfObservations(keys: seq<Cell>, vals: seq<Cell>)
    requires |keys| == |vals|
    ensures Firsts(Observations(keys, vals)) == Present(keys)
  {
    if |keys| > 0 {
      var n := |keys| - 1;
      KeysOfObservations(keys[..n], vals[..n]);
      assert keys == keys[..n] + [keys[n]];
    }
  }

  /** Grouping on two columns keeps the same rows, in the same order, as the
      cross tabulation of those columns. */
  lemma {:induction false} KeysOfJoined(xs: seq<Cell>, ys: seq<Cell>, vals: seq<Cell>)
    requires |xs| == |ys| == |vals|
    ensures Firsts(Observations(JoinKeys(xs, ys), vals)) == PresentPairs(xs, ys)
  {
    if |xs| > 0 {
      var n := |xs| - 1;
      assert JoinKeys(xs, ys)[..n] == JoinKeys(xs[..n], ys[..n]);
      KeysOfJoined(xs[..n], ys[..n], vals[..n]);
    }
  }

  /** Outcomes coded 0 and 1 stay 0 and 1 once grouped. */
  lemma {:induction false} ObservedIndicators(keys: seq<Cell>, vals: seq<Cell>)
    requires |keys| == |vals|
    requires forall k :: 0 <= k < |vals| ==> vals[k] in {None, Some(Num(0.0)), Some(Num(1.0))}
    ensures IndicatorValued(Observations(keys, vals))
  {
    if |keys| > 0 {
      var n := |keys| - 1;
      ObservedIndicators(keys[..n], vals[..n]);
      var rest := Observations(keys[..n], vals[..n]);
      var x := AsReal(vals[n]);
      assert vals[n] in {None, Some(Num(0.0)), Some(Num(1.0))};
      assert x.Some? ==> x.value == 0.0 || x.value == 1.0;
      if keys[n].Some? {
        assert Observations(keys, vals) == rest + [(keys[n].value, x)];
      } else {
        assert Observations(keys, vals) == rest;
      }
    }
  }
}

=== FILE: chisquare.dfy ===
/** The Pearson chi-square test of independence on a two-way table of observed
    frequencies, as scipy.stats.chi2_contingency computes it with its default
    continuity correction, and Cramér's V, modelled through its square. */
module ChiSquare {
  import opened Wrappers
  import opened Sums
  import opened Matrix

  /** A table chi2_contingency accepts: at least one row and one column, no
      negative cell, and no row or column summing to zero (that would make an
      expected frequency zero, which chi2_contingency rejects). */
  predicate Observable(o: seq<seq<real>>, r: nat, c: nat)
  {
    && IsMatrix(o, r, c) && 0 < r && 0 < c
    && (forall i, j :: 0 <= i < r && 0 <= j < c ==> 0.0 <= o[i][j])
    && (forall i :: 0 <= i < r ==> 0.0 < RowSums(o)[i])
    && (forall j :: 0 <= j < c ==> 0.0 < ColSums(o, c)[j])
  }

  lemma TotalPositive(o: seq<seq<real>>, r: nat, c: nat)
    requires Observable(o, r, c)
    ensures 0.0 < Total(o)
  {
    forall i | 0 <= i < r ensures 0.0 <= RowSums(o)[i] { }
    SumElementLe(RowSums(o), 0);
  }

  /** Degrees of freedom of an r-by-c table. */
  function Dof(r: nat, c: nat): nat
    requires 0 < r && 0 < c
  {
    ProductNonneg(r - 1, c - 1);
    (r - 1) * (c - 1)
  }

  lemma ProductNonneg(a: nat, b: nat)
    ensures 0 <= a * b
  {
  }

  /** The smaller dimension less one, Cramér's normaliser. */
  function MinDim(r: nat, c: nat): nat
    requires 0 < r && 0 < c
  {
    (if r < c then r else c) - 1
  }

  /** `rs`, `cs` and `n` are the row totals, the column totals and the grand
      total of `o`, a table of nonnegative cells whose margins are positive. */
  predicate Margins(o: seq<seq<real>>, rs: seq<real>, cs: seq<real>, n: real, r: nat, c: nat)
  {
    && IsMatrix(o, r, c) && |rs| == r && |cs| == c && 0.0 < n
    && RowSums(o) == rs && ColSums(o, c) == cs && Sum(rs) == n && Sum(cs) == n
    && (forall i, j :: 0 <= i < r && 0 <= j < c ==> 0.0 <= o[i][j] <= rs[i])
    && (forall i :: 0 <= i < r ==> 0.0 < rs[i])
    && (forall j :: 0 <= j < c ==> 0.0 < cs[j])
  }

  lemma ObservableMargins(o: seq<seq<real>>, r: nat, c: nat)
    requires Observable(o, r, c)
    ensures Margins(o, RowSums(o), ColSums(o, c), Total(o), r, c)
  {
    TotalPositive(o, r, c);
    TotalByColumns(o, c);
    forall i, j | 0 <= i < r && 0 <= j < c ensures o[i][j] <= RowSums(o)[i] {
      forall k | 0 <= k < c ensures 0.0 <= o[i][k] { }
      SumElementLe(o[i], j);
    }
  }

  /** The margins of the transposed table are the margins swapped. */
  lemma MarginsOfTranspose(o: seq<seq<real>>, rs: seq<real>, cs: seq<real>, n: real, r: nat, c: nat)
    requires Margins(o, rs, cs, n, r, c)
    ensures Margins(Transpose(o, c), cs, rs, n, c, r)
  {
    MarginsTranspose(o, c);
    var t := Transpose(o, c);
    forall j, i | 0 <= j < c && 0 <= i < r ensures 0.0 <= t[j][i] <= cs[j] {
      assert ColSums(o, c)[j] == Sum(Column(o, j));
      forall k | 0 <= k < r ensures 0.0 <= Column(o, j)[k] { }
      SumElementLe(Column(o, j), i);
    }
  }

  /** Expected frequencies under independence from given margins: row total
      times column total over the grand total, row by row the column totals
      scaled by rs[i] / n. */
  function ExpectedFrom(rs: seq<real>, cs: seq<real>, n: real): (e: seq<seq<real>>)
    requires 0.0 < n
    requires forall i :: 0 <= i < |rs| ==> 0.0 < rs[i]
    requires forall j :: 0 <= j < |cs| ==> 0.0 < cs[j]
    ensures Positive(e, |rs|, |cs|)
  {
    var e := seq(|rs|, i requires 0 <= i < |rs| => Scaled(cs, rs[i] / n));
    forall i, j | 0 <= i < |rs| && 0 <= j < |cs| ensures 0.0 < e[i][j] {
      ProductPositive(rs[i], cs[j], n);
    }
    e
  }

  lemma ExpectedFromAt(rs: seq<real>, cs: seq<real>, n: real, i: nat, j: nat)
    requires 0.0 < n && i < |rs| && j < |cs|
    requires forall i :: 0 <= i < |rs| ==> 0.0 < rs[i]
    requires forall j :: 0 <= j < |cs| ==> 0.0 < cs[j]
    ensures ExpectedFrom(rs, cs, n)[i][j] == rs[i] / n * cs[j]
  {
  }

  lemma ProductPositive(x: real, y: real, n: real)
    requires 0.0 < x && 0.0 < y && 0.0 < n
    ensures 0.0 < x / n * y
  {
    assert 0.0 < x / n;
  }

  /** The expected frequencies of a table chi2_contingency accepts. */
  function Expected(o: seq<seq<real>>, r: nat, c: nat): (e: seq<seq<real>>)
    requires Observable(o, r, c)
    ensures Positive(e, r, c)
  {
    TotalPositive(o, r, c);
    ExpectedFrom(RowSums(o), ColSums(o, c), Total(o))
  }

  function Sign(x: real): real
  {
    if 0.0 < x then 1.0 else if x < 0.0 then -1.0 else 0.0
  }

  function Abs(x: real): real
  {
    if x < 0.0 then -x else x
  }

  function Min(a: real, b: real): real
  {
    if a <= b then a else b
  }

  /** Yates' continuity correction as chi2_contingency applies it: the observed
      count moves toward the expected one by one half, or all the way when
      they are closer than that. */
  function YatesCorrected(o: real, e: real): (a: real)
    ensures Abs(a - e) == if Abs(e - o) <= 0.5 then 0.0 else Abs(e - o) - 0.5
  {
    o + Sign(e - o) * Min(0.5, Abs(e - o))
  }

  /** One cell's share (o - e)^2 / e of the statistic, taken on the corrected
      count when `yates` holds. */
  function CellTerm(o: real, e: real, yates: bool): (t: real)
    requires 0.0 < e
    ensures 0.0 <= t
  {
    var a := if yates then YatesCorrected(o, e) else o;
    assert 0.0 <= (a - e) * (a - e);
    (a - e) * (a - e) / e
  }

  /** `e` is an `r`-by-`c` table of positive reals. */
  predicate Positive(e: seq<seq<real>>, r: nat, c: nat)
  {
    IsMatrix(e, r, c) && forall i, j :: 0 <= i < r && 0 <= j < c ==> 0.0 < e[i][j]
  }

  /** Every cell's share of the statistic, against the expected table `e`. */
  function CellTerms(o: seq<seq<real>>, e: seq<seq<real>>, r: nat, c: nat, yates: bool): (t: seq<seq<real>>)
    requires IsMatrix(o, r, c) && Positive(e, r, c)
    ensures IsMatrix(t, r, c)
    ensures forall i, j :: 0 <= i < r && 0 <= j < c ==> 0.0 <= t[i][j]
  {
    seq(r, i requires 0 <= i < r =>
      seq(c, j requires 0 <= j < c => CellTerm(o[i][j], e[i][j], yates)))
  }

  /** The statistic chi2_contingency returns: 0 for a table without degrees of
      freedom, the Yates-corrected sum for one degree of freedom, the plain
      Pearson sum otherwise. */
  function Statistic(o: seq<seq<real>>, r: nat, c: nat): (chi2: real)
    requires Observable(o, r, c)
    ensures 0.0 <= chi2
  {
    if Dof(r, c) == 0 then 0.0
    else
      var t := CellTerms(o, Expected(o, r, c), r, c, Dof(r, c) == 1);
      TotalNonneg(t, r, c);
      Total(t)
  }

  /** Cramér's V squared, chi2 / (n * min_dim); None where numpy's division by
      zero yields NaN or infinity. */
  function CramersVSquared(chi2: real, n: real, minDim: nat): (v: Option<real>)
    ensures v.None? <==> n * minDim as real == 0.0
    ensures v.Some? ==> v.value * (n * minDim as real) == chi2
  {
    var d := n * minDim as real;
    if d == 0.0 then None else Some(chi2 / d)
  }

  // ---- Facts about the expected table --------------------------------------

  /** Each row of the expected table adds up to the observed row total. */
  lemma ExpectedFromRowSums(rs: seq<real>, cs: seq<real>, n: real)
    requires 0.0 < n && Sum(cs) == n
    requires forall i :: 0 <= i < |rs| ==> 0.0 < rs[i]
    requires forall j :: 0 <= j < |cs| ==> 0.0 < cs[j]
    ensures RowSums(ExpectedFrom(rs, cs, n)) == rs
  {
    var e := ExpectedFrom(rs, cs, n);
    forall i | 0 <= i < |rs| ensures RowSums(e)[i] == rs[i] {
      ExpectedRowSum(rs, cs, n, i);
    }
  }

  lemma ExpectedRowSum(rs: seq<real>, cs: seq<real>, n: real, i: nat)
    requires 0.0 < n && Sum(cs) == n && i < |rs|
    requires forall i :: 0 <= i < |rs| ==> 0.0 < rs[i]
    requires forall j :: 0 <= j < |cs| ==> 0.0 < cs[j]
    ensures Sum(ExpectedFrom(rs, cs, n)[i]) == rs[i]
  {
    assert ExpectedFrom(rs, cs, n)[i] == Scaled(cs, rs[i] / n);
    RescaledSum(cs, rs[i], n);
  }

  /** Scaling a sequence that sums to t by x / t makes it sum to x. */
  lemma RescaledSum(s: seq<real>, x: real, t: real)
    requires t != 0.0 && Sum(s) == t
    ensures Sum(Scaled(s, x / t)) == x
  {
    ScaledSum(s, x / t);
    CancelScale(x, t, Sum(s));
  }

  lemma CancelScale(x: real, s: real, t: real)
    requires s != 0.0 && t == s
    ensures x / s * t == x
  {
  }

  /** The expected table has the observed grand total. */
  lemma ExpectedTotal(o: seq<seq<real>>, r: nat, c: nat)
    requires Observable(o, r, c)
    ensures Total(Expected(o, r, c)) == Total(o)
  {
    ObservableMargins(o, r, c);
    ExpectedFromRowSums(RowSums(o), ColSums(o, c), Total(o));
  }

  // ---- Symmetry: transposing the table leaves the statistic unchanged ------

  lemma ObservableTranspose(o: seq<seq<real>>, r: nat, c: nat)
    requires Observable(o, r, c)
    ensures Observable(Transpose(o, c), c, r)
  {
    MarginsTranspose(o, c);
  }

  lemma ExpectedFromTranspose(rs: seq<real>, cs: seq<real>, n: real)
    requires 0.0 < n
    requires forall i :: 0 <= i < |rs| ==> 0.0 < rs[i]
    requires forall j :: 0 <= j < |cs| ==> 0.0 < cs[j]
    ensures ExpectedFrom(cs, rs, n) == Transpose(ExpectedFrom(rs, cs, n), |cs|)
  {
    var lhs, rhs := ExpectedFrom(cs, rs, n), Transpose(ExpectedFrom(rs, cs, n), |cs|);
    forall j, i | 0 <= j < |cs| && 0 <= i < |rs| ensures lhs[j][i] == rhs[j][i] {
      ExpectedFromAt(rs, cs, n, i, j);
      ExpectedFromAt(cs, rs, n, j, i);
      ProductCommutes(rs[i], cs[j], n);
    }
    assert forall j :: 0 <= j < |cs| ==> lhs[j] == rhs[j];
  }

  lemma ProductCommutes(x: real, y: real, n: real)
    requires n != 0.0
    ensures y / n * x == x / n * y
  {
  }

  lemma ExpectedTranspose(o: seq<seq<real>>, r: nat, c: nat)
    requires Observable(o, r, c)
    ensures Observable(Transpose(o, c), c, r)
    ensures Expected(Transpose(o, c), c, r) == Transpose(Expected(o, r, c), c)
  {
    ObservableTranspose(o, r, c);
    MarginsTranspose(o, c);
    TotalTranspose(o, c);
    TotalPositive(o, r, c);
    ExpectedFromTranspose(RowSums(o), ColSums(o, c), Total(o));
  }

  lemma CellTermsTranspose(o: seq<seq<real>>, e: seq<seq<real>>, r: nat, c: nat, yates: bool)
    requires IsMatrix(o, r, c) && Positive(e, r, c)
    ensures Positive(Transpose(e, c), c, r)
    ensures CellTerms(Transpose(o, c), Transpose(e, c), c, r, yates) == Transpose(CellTerms(o, e, r, c, yates), c)
  {
    var lhs, rhs := CellTerms(Transpose(o, c), Transpose(e, c), c, r, yates), Transpose(CellTerms(o, e, r, c, yates), c);
    assert forall j :: 0 <= j < c ==> lhs[j] == rhs[j];
  }

  /** Swapping the two variables transposes the table and leaves the statistic
      unchanged. */
  lemma StatisticTranspose(o: seq<seq<real>>, r: nat, c: nat)
    requires Observable(o, r, c)
    ensures Observable(Transpose(o, c), c, r)
    ensures Statistic(Transpose(o, c), c, r) == Statistic(o, r, c)
  {
    ObservableTranspose(o, r, c);
    assert Dof(c, r) == Dof(r, c);
    if Dof(r, c) != 0 {
      var yates := Dof(r, c) == 1;
      ExpectedTranspose(o, r, c);
      CellTermsTranspose(o, Expected(o, r, c), r, c, yates);
      TotalTranspose(CellTerms(o, Expected(o, r, c), r, c, yates), c);
    }
  }

  // ---- The correction never increases a cell's share -----------------------

  lemma YatesShrinks(o: real, e: real)
    requires 0.0 < e
    ensures CellTerm(o, e, true) <= CellTerm(o, e, false)
  {
    var a := YatesCorrected(o, e);
    var d, d' := Abs(o - e), Abs(a - e);
    assert Abs(e - o) == d;
    assert 0.0 <= d' <= d;
    assert (a - e) * (a - e) == d' * d';
    assert (o - e) * (o - e) == d * d;
    assert d' * d' <= d * d;
  }

  lemma CorrectionNeverIncreases(o: seq<seq<real>>, e: seq<seq<real>>, r: nat, c: nat)
    requires IsMatrix(o, r, c) && Positive(e, r, c)
    ensures Total(CellTerms(o, e, r, c, true)) <= Total(CellTerms(o, e, r, c, false))
  {
    var corrected, plain := CellTerms(o, e, r, c, true), CellTerms(o, e, r, c, false);
    forall i, j | 0 <= i < r && 0 <= j < c ensures corrected[i][j] <= plain[i][j] {
      YatesShrinks(o[i][j], e[i][j]);
    }
    TotalMono(corrected, plain, r, c);
  }

  // ---- The bound chi2 <= n * min_dim, which puts V in [0, 1] --------------

  /** Each cell's o^2 / e, the part of (o - e)^2 / e that is not linear. */
  function Ratios(o: seq<seq<real>>, e: seq<seq<real>>, r: nat, c: nat): (q: seq<seq<real>>)
    requires IsMatrix(o, r, c) && Positive(e, r, c)
    ensures IsMatrix(q, r, c)
  {
    seq(r, i requires 0 <= i < r =>
      seq(c, j requires 0 <= j < c => o[i][j] * o[i][j] / e[i][j]))
  }

  lemma CellExpansion(o: real, e: real)
    requires 0.0 < e
    ensures CellTerm(o, e, false) == o * o / e + e - o - o
  {
    assert (o - e) * (o - e) == o * o - 2.0 * o * e + e * e;
    assert (o * o - 2.0 * o * e + e * e) / e == o * o / e - 2.0 * o + e;
  }

  lemma ExpansionAt(o: seq<seq<real>>, e: seq<seq<real>>, r: nat, c: nat, i: nat, j: nat)
    requires IsMatrix(o, r, c) && Positive(e, r, c) && i < r && j < c
    ensures CellTerms(o, e, r, c, false)[i][j] == Ratios(o, e, r, c)[i][j] + e[i][j] - o[i][j] - o[i][j]
  {
    CellExpansion(o[i][j], e[i][j]);
  }

  /** Summed over the table, (o - e)^2 / e = o^2 / e + e - 2 o. */
  lemma Expansion(o: seq<seq<real>>, e: seq<seq<real>>, r: nat, c: nat)
    requires IsMatrix(o, r, c) && Positive(e, r, c)
    ensures Total(CellTerms(o, e, r, c, false)) == Total(Ratios(o, e, r, c)) + Total(e) - Total(o) - Total(o)
  {
    var t, q := CellTerms(o, e, r, c, false), Ratios(o, e, r, c);
    var u := seq(r, i requires 0 <= i < r =>
      seq(c, j requires 0 <= j < c => q[i][j] + e[i][j]));
    var v := seq(r, i requires 0 <= i < r =>
      seq(c, j requires 0 <= j < c => u[i][j] - o[i][j]));
    forall i, j | 0 <= i < r && 0 <= j < c ensures t[i][j] == v[i][j] - o[i][j] {
      ExpansionAt(o, e, r, c, i, j);
    }
    TotalSub(v, o, t, r, c);
    TotalSub(u, o, v, r, c);
    TotalAdd(q, e, u, r, c);
  }

  lemma CellRatioBound(o: real, rowTotal: real, colTotal: real, n: real, e: real)
    requires 0.0 <= o <= rowTotal && 0.0 < rowTotal && 0.0 < colTotal && 0.0 < n
    requires e == rowTotal / n * colTotal
    ensures o * o / e <= n / colTotal * o
  {
    assert 0.0 < rowTotal * colTotal;
    assert e == rowTotal * colTotal / n;
    assert 0.0 < e;
    assert o * o <= o * rowTotal;
    assert o * o / e == (o * o) * n / (rowTotal * colTotal);
    assert o * rowTotal * n / (rowTotal * colTotal) == n / colTotal * o;
    assert (o * o) * n <= (o * rowTotal) * n;
  }

  /** A cell never exceeds its row total, so o^2 / e <= o n / (column total). */
  lemma RatioBoundAt(o: seq<seq<real>>, rs: seq<real>, cs: seq<real>, n: real, r: nat, c: nat, i: nat, j: nat)
    requires Margins(o, rs, cs, n, r, c) && i < r && j < c
    ensures Ratios(o, ExpectedFrom(rs, cs, n), r, c)[i][j] <= n / cs[j] * o[i][j]
  {
    var e := ExpectedFrom(rs, cs, n);
    ExpectedFromAt(rs, cs, n, i, j);
    CellRatioBound(o[i][j], rs[i], cs[j], n, e[i][j]);
  }

  /** Down one column, sum(o^2 / e) is at most n. */
  lemma ColumnRatioBound(o: seq<seq<real>>, rs: seq<real>, cs: seq<real>, n: real, r: nat, c: nat, j: nat)
    requires Margins(o, rs, cs, n, r, c) && j < c
    ensures ColSums(Ratios(o, ExpectedFrom(rs, cs, n), r, c), c)[j] <= n
  {
    ColumnRatiosBelow(o, rs, cs, n, r, c, j);
    assert Sum(Column(o, j)) == cs[j];
    RescaledSum(Column(o, j), n, cs[j]);
  }

  lemma ColumnRatiosBelow(o: seq<seq<real>>, rs: seq<real>, cs: seq<real>, n: real, r: nat, c: nat, j: nat)
    requires Margins(o, rs, cs, n, r, c) && j < c
    ensures ColSums(Ratios(o, ExpectedFrom(rs, cs, n), r, c), c)[j] <= Sum(Scaled(Column(o, j), n / cs[j]))
  {
    var q := Ratios(o, ExpectedFrom(rs, cs, n), r, c);
    var col, bound := Column(q, j), Scaled(Column(o, j), n / cs[j]);
    forall i | 0 <= i < r ensures col[i] <= bound[i] {
      RatioBoundAt(o, rs, cs, n, r, c, i, j);
    }
    SumMono(col, bound);
  }

  /** sum(o^2 / e) is at most c n. */
  lemma RatiosBound(o: seq<seq<real>>, rs: seq<real>, cs: seq<real>, n: real, r: nat, c: nat)
    requires Margins(o, rs, cs, n, r, c)
    ensures Total(Ratios(o, ExpectedFrom(rs, cs, n), r, c)) <= c as real * n
  {
    var q := Ratios(o, ExpectedFrom(rs, cs, n), r, c);
    forall j | 0 <= j < c ensures ColSums(q, c)[j] <= n {
      ColumnRatioBound(o, rs, cs, n, r, c, j);
    }
    SumBoundedBy(ColSums(q, c), n);
    TotalByColumns(q, c);
  }

  /** The uncorrected statistic is at most (c - 1) n. */
  lemma PearsonBound(o: seq<seq<real>>, rs: seq<real>, cs: seq<real>, n: real, r: nat, c: nat)
    requires Margins(o, rs, cs, n, r, c)
    ensures Total(CellTerms(o, ExpectedFrom(rs, cs, n), r, c, false)) <= (c - 1) as real * n
  {
    var e := ExpectedFrom(rs, cs, n);
    Expansion(o, e, r, c);
    ExpectedFromRowSums(rs, cs, n);
    RatiosBound(o, rs, cs, n, r, c);
    ExpansionBound(Total(CellTerms(o, e, r, c, false)), Total(Ratios(o, e, r, c)), n, c);
  }

  /** t = q + n - n - n with q <= c n gives t <= (c - 1) n. */
  lemma ExpansionBound(t: real, q: real, n: real, c: nat)
    requires 0 < c && t == q + n - n - n && q <= c as real * n
    ensures t <= (c - 1) as real * n
  {
    NextMultiple(n, (c - 1) as real, c as real);
  }

  /** Both bounds, the second through the transposed table. */
  lemma PearsonBounds(o: seq<seq<real>>, r: nat, c: nat)
    requires Observable(o, r, c)
    ensures var plain := Total(CellTerms(o, Expected(o, r, c), r, c, false));
      plain <= (c - 1) as real * Total(o) && plain <= (r - 1) as real * Total(o)
  {
    var rs, cs, n := RowSums(o), ColSums(o, c), Total(o);
    ObservableMargins(o, r, c);
    PearsonBound(o, rs, cs, n, r, c);
    PearsonBoundByRows(o, rs, cs, n, r, c);
  }

  /** The uncorrected statistic is at most (r - 1) n. */
  lemma PearsonBoundByRows(o: seq<seq<real>>, rs: seq<real>, cs: seq<real>, n: real, r: nat, c: nat)
    requires Margins(o, rs, cs, n, r, c)
    ensures Total(CellTerms(o, ExpectedFrom(rs, cs, n), r, c, false)) <= (r - 1) as real * n
  {
    MarginsOfTranspose(o, rs, cs, n, r, c);
    PearsonBound(Transpose(o, c), cs, rs, n, c, r);
    PearsonTranspose(o, rs, cs, n, r, c);
  }

  lemma PearsonTranspose(o: seq<seq<real>>, rs: seq<real>, cs: seq<real>, n: real, r: nat, c: nat)
    requires Margins(o, rs, cs, n, r, c)
    ensures Positive(ExpectedFrom(cs, rs, n), c, r)
    ensures Total(CellTerms(Transpose(o, c), ExpectedFrom(cs, rs, n), c, r, false))
         == Total(CellTerms(o, ExpectedFrom(rs, cs, n), r, c, false))
  {
    var e := ExpectedFrom(rs, cs, n);
    ExpectedFromTranspose(rs, cs, n);
    CellTermsTranspose(o, e, r, c, false);
    TotalTranspose(CellTerms(o, e, r, c, false), c);
  }

  /** The statistic returned is at most the uncorrected one. */
  lemma StatisticAtMostPearson(o: seq<seq<real>>, r: nat, c: nat)
    requires Observable(o, r, c) && Dof(r, c) != 0
    ensures Statistic(o, r, c) <= Total(CellTerms(o, Expected(o, r, c), r, c, false))
  {
    CorrectionNeverIncreases(o, Expected(o, r, c), r, c);
  }

  /** With degrees of freedom, chi2 is at most both (c - 1) n and (r - 1) n. */
  lemma StatisticBounds(o: seq<seq<real>>, r: nat, c: nat)
    requires Observable(o, r, c) && Dof(r, c) != 0
    ensures Statistic(o, r, c) <= (c - 1) as real * Total(o)
    ensures Statistic(o, r, c) <= (r - 1) as real * Total(o)
  {
    StatisticAtMostPearson(o, r, c);
    PearsonBounds(o, r, c);
  }

  lemma StatisticBoundWithDof(o: seq<seq<real>>, r: nat, c: nat)
    requires Observable(o, r, c) && Dof(r, c) != 0
    ensures Statistic(o, r, c) <= MinDim(r, c) as real * Total(o)
  {
    StatisticBounds(o, r, c);
    BoundByMinDim(Statistic(o, r, c), Total(o), r, c);
  }

  /** A value bounded by both (r - 1) n and (c - 1) n is bounded by
      min_dim n. */
  lemma BoundByMinDim(chi2: real, n: real, r: nat, c: nat)
    requires 0 < r && 0 < c
    requires chi2 <= (c - 1) as real * n && chi2 <= (r - 1) as real * n
    ensures chi2 <= MinDim(r, c) as real * n
  {
    MinDimCases(r, c);
    BoundByEither(chi2, (r - 1) as real, (c - 1) as real, MinDim(r, c) as real, n);
  }

  lemma StatisticBoundWithoutDof(o: seq<seq<real>>, r: nat, c: nat)
    requires Observable(o, r, c) && Dof(r, c) == 0
    ensures Statistic(o, r, c) <= MinDim(r, c) as real * Total(o)
  {
    TotalPositive(o, r, c);
    MinDimNonneg(MinDim(r, c), Total(o));
  }

  /** chi2 never exceeds n * min_dim, the number Cramér's V divides by. */
  lemma StatisticBound(o: seq<seq<real>>, r: nat, c: nat)
    requires Observable(o, r, c)
    ensures 0.0 < Total(o)
    ensures Statistic(o, r, c) <= MinDim(r, c) as real * Total(o)
  {
    TotalPositive(o, r, c);
    if Dof(r, c) != 0 {
      StatisticBoundWithDof(o, r, c);
    } else {
      StatisticBoundWithoutDof(o, r, c);
    }
  }

  lemma MinDimCases(r: nat, c: nat)
    requires 0 < r && 0 < c
    ensures MinDim(r, c) as real == (r - 1) as real || MinDim(r, c) as real == (c - 1) as real
  {
  }

  lemma BoundByEither(s: real, a: real, b: real, m: real, n: real)
    requires s <= a * n && s <= b * n && (m == a || m == b)
    ensures s <= m * n
  {
    if m == a {
      assert m * n == a * n;
    } else {
      assert m * n == b * n;
    }
  }

  lemma MinDimNonneg(m: nat, n: real)
    requires 0.0 < n
    ensures 0.0 <= m as real * n
  {
  }

  lemma VSquaredRange(chi2: real, n: real, m: nat)
    requires 0.0 < n && 0.0 <= chi2 <= m as real * n
    ensures var v := CramersVSquared(chi2, n, m);
      && (v.None? <==> m == 0)
      && (v.Some? ==> 0.0 <= v.value <= 1.0)
  {
    var d := n * m as real;
    if 0 < m {
      assert 0.0 < d;
      var v := chi2 / d;
      assert v * d == chi2;
    }
  }

  /** For a table chi2_contingency accepts, V^2 is defined exactly when both
      dimensions exceed one, and then lies in [0, 1]. */
  lemma CramersVRange(o: seq<seq<real>>, r: nat, c: nat)
    requires Observable(o, r, c)
    ensures var v := CramersVSquared(Statistic(o, r, c), Total(o), MinDim(r, c));
      && (v.None? <==> MinDim(r, c) == 0)
      && (v.Some? ==> 0.0 <= v.value <= 1.0)
  {
    StatisticBound(o, r, c);
    VSquaredOfBounded(o, r, c, Statistic(o, r, c));
  }

  lemma VSquaredOfBounded(o: seq<seq<real>>, r: nat, c: nat, chi2: real)
    requires Observable(o, r, c)
    requires 0.0 <= chi2 && 0.0 < Total(o) && chi2 <= MinDim(r, c) as real * Total(o)
    ensures var v := CramersVSquared(chi2, Total(o), MinDim(r, c));
      && (v.None? <==> MinDim(r, c) == 0)
      && (v.Some? ==> 0.0 <= v.value <= 1.0)
  {
    VSquaredRange(chi2, Total(o), MinDim(r, c));
  }
}

=== FILE: counting.dfy ===
/** Counting occurrences and listing distinct values, as pandas does when it
    cross-tabulates, groups, or reports `unique` and `freq`. */
module Counting {
  import opened Sums

  /** The number of occurrences of `x` in `s`. */
  function Count<T(==)>(s: seq<T>, x: T): nat
  {
    if |s| == 0 then 0
    else Count(s[..|s| - 1], x) + (if s[|s| - 1] == x then 1 else 0)
  }

  predicate NoDuplicates<T(==)>(s: seq<T>)
  {
    forall i, j :: 0 <= i < j < |s| ==> s[i] != s[j]
  }

  /** The distinct elements of `s`, in order of first occurrence. */
  function Dedup<T(==,!new)>(s: seq<T>): (r: seq<T>)
    ensures NoDuplicates(r)
    ensures forall x :: x in r <==> x in s
    ensures |r| <= |s|
  {
    if |s| == 0 then []
    else
      var d := Dedup(s[..|s| - 1]);
      if s[|s| - 1] in d then d else d + [s[|s| - 1]]
  }

  lemma {:induction false} CountBounds<T>(s: seq<T>, x: T)
    ensures Count(s, x) <= |s|
    ensures x in s <==> Count(s, x) > 0
  {
    if |s| > 0 {
      var n := |s| - 1;
      CountBounds(s[..n], x);
      assert s == s[..n] + [s[n]];
    }
  }

  /** In a list without duplicates a value occurs once or not at all. */
  lemma {:induction false} CountNoDuplicates<T>(s: seq<T>, x: T)
    requires NoDuplicates(s)
    ensures Count(s, x) == if x in s then 1 else 0
  {
    if |s| > 0 {
      var n := |s| - 1;
      CountNoDuplicates(s[..n], x);
      assert s == s[..n] + [s[n]];
      assert s[n] !in s[..n];
    }
  }

  /** For every label, how often it occurs in `s`. */
  function CountsOf<T(==)>(s: seq<T>, labels: seq<T>): (r: seq<real>)
    ensures |r| == |labels|
  {
    seq(|labels|, k requires 0 <= k < |labels| => Count(s, labels[k]) as real)
  }

  /** For every label, 1 when it is `x` and 0 otherwise. */
  function Indicators<T(==)>(labels: seq<T>, x: T): (r: seq<real>)
    ensures |r| == |labels|
  {
    seq(|labels|, k requires 0 <= k < |labels| => if labels[k] == x then 1.0 else 0.0)
  }

  lemma {:induction false} IndicatorsSum<T>(labels: seq<T>, x: T)
    ensures Sum(Indicators(labels, x)) == Count(labels, x) as real
  {
    if |labels| > 0 {
      var n := |labels| - 1;
      IndicatorsSum(labels[..n], x);
      assert Indicators(labels, x)[..n] == Indicators(labels[..n], x);
    }
  }

  /** Counting every element of `s` against a list of distinct labels that
      covers `s` accounts for each element exactly once. */
  lemma {:induction false} CountsCover<T>(s: seq<T>, labels: seq<T>)
    requires NoDuplicates(labels)
    requires forall k :: 0 <= k < |s| ==> s[k] in labels
    ensures Sum(CountsOf(s, labels)) == |s| as real
  {
    if |s| > 0 {
      var n := |s| - 1;
      CountsCover(s[..n], labels);
      IndicatorsSum(labels, s[n]);
      CountNoDuplicates(labels, s[n]);
      forall k | 0 <= k < |labels|
        ensures CountsOf(s, labels)[k] == CountsOf(s[..n], labels)[k] + Indicators(labels, s[n])[k]
      {
        assert s[..|s| - 1] == s[..n];
      }
      SumAdd(CountsOf(s[..n], labels), Indicators(labels, s[n]), CountsOf(s, labels));
    } else {
      SumConst(CountsOf(s, labels), 0.0);
    }
  }

  /** The number of distinct elements is the size of the set of elements. */
  lemma {:induction false} DistinctCardinality<T(!new)>(s: seq<T>)
    requires NoDuplicates(s)
    ensures |set x | x in s| == |s|
  {
    if |s| > 0 {
      var n := |s| - 1;
      DistinctCardinality(s[..n]);
      assert (set x | x in s) == (set x | x in s[..n]) + {s[n]};
      assert s[n] !in (set x | x in s[..n]);
    }
  }
}

=== FILE: crosstab.dfy ===
/** pandas' `crosstab`: the frequency table of the value pairs of two
    columns, over the rows where both are present. Rows and columns are
    labelled by the distinct values, in order of first occurrence. */
module Crosstab {
  import opened Sums
  import opened Counting
  import opened Matrix
  import opened Dataset
  import opened ChiSquare

  /** The first components of a sequence of pairs. */
  function Firsts<A, B>(ps: seq<(A, B)>): (xs: seq<A>)
    ensures |xs| == |ps|
    ensures forall k :: 0 <= k < |ps| ==> xs[k] == ps[k].0
  {
    seq(|ps|, k requires 0 <= k < |ps| => ps[k].0)
  }

  /** The second components of a sequence of pairs. */
  function Seconds<A, B>(ps: seq<(A, B)>): (ys: seq<B>)
    ensures |ys| == |ps|
    ensures forall k :: 0 <= k < |ps| ==> ys[k] == ps[k].1
  {
    seq(|ps|, k requires 0 <= k < |ps| => ps[k].1)
  }

  /** How often each label pair occurs: entry (i, j) counts the pairs equal
      to (rowLabels[i], colLabels[j]). */
  function Tally(ps: seq<(Value, Value)>, rowLabels: seq<Value>, colLabels: seq<Value>): (m: seq<seq<real>>)
    ensures IsMatrix(m, |rowLabels|, |colLabels|)
  {
    seq(|rowLabels|, i requires 0 <= i < |rowLabels| => RowTally(ps, rowLabels[i], colLabels))
  }

  function RowTally(ps: seq<(Value, Value)>, a: Value, colLabels: seq<Value>): (row: seq<real>)
    ensures |row| == |colLabels|
  {
    seq(|colLabels|, j requires 0 <= j < |colLabels| => Count(ps, (a, colLabels[j])) as real)
  }

  lemma TallyAt(ps: seq<(Value, Value)>, rowLabels: seq<Value>, colLabels: seq<Value>, i: nat, j: nat)
    requires i < |rowLabels| && j < |colLabels|
    ensures Tally(ps, rowLabels, colLabels)[i][j] == Count(ps, (rowLabels[i], colLabels[j])) as real
  {
  }

  /** Against distinct column labels that cover every pair, a row of the
      tally adds up to the number of pairs with that row label. */
  lemma {:induction false} RowTallySum(ps: seq<(Value, Value)>, a: Value, colLabels: seq<Value>)
    requires NoDuplicates(colLabels)
    requires forall k :: 0 <= k < |ps| ==> ps[k].1 in colLabels
    ensures Sum(RowTally(ps, a, colLabels)) == Count(Firsts(ps), a) as real
  {
    if |ps| == 0 {
      SumConst(RowTally(ps, a, colLabels), 0.0);
    } else {
      var n := |ps| - 1;
      RowTallySum(ps[..n], a, colLabels);
      assert Firsts(ps)[..n] == Firsts(ps[..n]);
      RowTallyStep(ps, a, colLabels);
      SumAdd(RowTally(ps[..n], a, colLabels), Step(ps[n], a, colLabels), RowTally(ps, a, colLabels));
      StepSum(ps[n], a, colLabels);
    }
  }

  /** One row of the tally of the single pair `p`. */
  function Step(p: (Value, Value), a: Value, colLabels: seq<Value>): (row: seq<real>)
    ensures |row| == |colLabels|
  {
    seq(|colLabels|, j requires 0 <= j < |colLabels| => if (a, colLabels[j]) == p then 1.0 else 0.0)
  }

  lemma RowTallyStep(ps: seq<(Value, Value)>, a: Value, colLabels: seq<Value>)
    requires |ps| > 0
    ensures forall j :: 0 <= j < |colLabels| ==>
      RowTally(ps, a, colLabels)[j] == RowTally(ps[..|ps| - 1], a, colLabels)[j] + Step(ps[|ps| - 1], a, colLabels)[j]
  {
  }

  /** The single pair `p` adds one to the row of its own first value. */
  lemma StepSum(p: (Value, Value), a: Value, colLabels: seq<Value>)
    requires NoDuplicates(colLabels) && p.1 in colLabels
    ensures Sum(Step(p, a, colLabels)) == if p.0 == a then 1.0 else 0.0
  {
    if p.0 == a {
      assert Step(p, a, colLabels) == Indicators(colLabels, p.1);
      IndicatorsSum(colLabels, p.1);
      CountNoDuplicates(colLabels, p.1);
    } else {
      SumConst(Step(p, a, colLabels), 0.0);
    }
  }

  /** The row totals of the tally count the row labels. */
  lemma TallyRowSums(ps: seq<(Value, Value)>, rowLabels: seq<Value>, colLabels: seq<Value>)
    requires NoDuplicates(colLabels)
    requires forall k :: 0 <= k < |ps| ==> ps[k].1 in colLabels
    ensures RowSums(Tally(ps, rowLabels, colLabels)) == CountsOf(Firsts(ps), rowLabels)
  {
    var m := Tally(ps, rowLabels, colLabels);
    forall i | 0 <= i < |rowLabels|
      ensures RowSums(m)[i] == CountsOf(Firsts(ps), rowLabels)[i]
    {
      RowTallySum(ps, rowLabels[i], colLabels);
    }
  }

  lemma {:induction false} CountSwapped(ps: seq<(Value, Value)>, a: Value, b: Value)
    ensures Count(Swapped(ps), (b, a)) == Count(ps, (a, b))
  {
    if |ps| > 0 {
      var n := |ps| - 1;
      CountSwapped(ps[..n], a, b);
      assert Swapped(ps)[..n] == Swapped(ps[..n]);
    }
  }

  /** Tallying the swapped pairs against the swapped labels transposes the
      tally. */
  lemma TallyTranspose(ps: seq<(Value, Value)>, rowLabels: seq<Value>, colLabels: seq<Value>)
    ensures Tally(Swapped(ps), colLabels, rowLabels) == Transpose(Tally(ps, rowLabels, colLabels), |colLabels|)
  {
    var lhs, rhs := Tally(Swapped(ps), colLabels, rowLabels), Transpose(Tally(ps, rowLabels, colLabels), |colLabels|);
    forall j, i | 0 <= j < |colLabels| && 0 <= i < |rowLabels| ensures lhs[j][i] == rhs[j][i] {
      CountSwapped(ps, rowLabels[i], colLabels[j]);
      TallyAt(ps, rowLabels, colLabels, i, j);
      TallyAt(Swapped(ps), colLabels, rowLabels, j, i);
    }
    assert forall j :: 0 <= j < |colLabels| ==> lhs[j] == rhs[j];
  }

  /** The column totals of the tally count the column labels. */
  lemma TallyColSums(ps: seq<(Value, Value)>, rowLabels: seq<Value>, colLabels: seq<Value>)
    requires NoDuplicates(rowLabels)
    requires forall k :: 0 <= k < |ps| ==> ps[k].0 in rowLabels
    ensures ColSums(Tally(ps, rowLabels, colLabels), |colLabels|) == CountsOf(Seconds(ps), colLabels)
  {
    var m := Tally(ps, rowLabels, colLabels);
    TallyTranspose(ps, rowLabels, colLabels);
    MarginsTranspose(m, |colLabels|);
    TallyRowSums(Swapped(ps), colLabels, rowLabels);
    assert Firsts(Swapped(ps)) == Seconds(ps);
  }

  /** Against distinct labels that cover the pairs, the tally's grand total
      is the number of pairs. */
  lemma TallyTotal(ps: seq<(Value, Value)>, rowLabels: seq<Value>, colLabels: seq<Value>)
    requires NoDuplicates(rowLabels) && NoDuplicates(colLabels)
    requires forall k :: 0 <= k < |ps| ==> ps[k].0 in rowLabels && ps[k].1 in colLabels
    ensures Total(Tally(ps, rowLabels, colLabels)) == |ps| as real
  {
    TallyRowSums(ps, rowLabels, colLabels);
    CountsCover(Firsts(ps), rowLabels);
  }

  /** A contingency table: row labels, column labels and the counts. */
  datatype Contingency = Contingency(rows: seq<Value>, cols: seq<Value>, counts: seq<seq<real>>)

  /** The cross tabulation of a list of value pairs. */
  function CrossTab(ps: seq<(Value, Value)>): (t: Contingency)
    ensures NoDuplicates(t.rows) && NoDuplicates(t.cols)
    ensures forall a :: a in t.rows <==> a in Firsts(ps)
    ensures forall b :: b in t.cols <==> b in Seconds(ps)
    ensures IsMatrix(t.counts, |t.rows|, |t.cols|)
  {
    var rows, cols := Dedup(Firsts(ps)), Dedup(Seconds(ps));
    Contingency(rows, cols, Tally(ps, rows, cols))
  }

  /** The table has no rows exactly when it has no columns, exactly when
      there are no pairs. */
  lemma CrossTabEmpty(ps: seq<(Value, Value)>)
    ensures |CrossTab(ps).rows| == 0 <==> |ps| == 0
    ensures |CrossTab(ps).cols| == 0 <==> |ps| == 0
  {
    if |ps| > 0 {
      assert Firsts(ps)[0] in Firsts(ps);
      assert Seconds(ps)[0] in Seconds(ps);
    }
  }

  /** Every pair is counted once: the grand total is the number of rows
      where both columns are present. */
  lemma CrossTabTotal(ps: seq<(Value, Value)>)
    ensures Total(CrossTab(ps).counts) == |ps| as real
  {
    var t := CrossTab(ps);
    forall k | 0 <= k < |ps| ensures ps[k].0 in t.rows && ps[k].1 in t.cols {
      assert Firsts(ps)[k] in Firsts(ps);
      assert Seconds(ps)[k] in Seconds(ps);
    }
    TallyTotal(ps, t.rows, t.cols);
  }

  /** Every row and every column of a non-empty cross tabulation has a
      positive total, so chi2_contingency accepts it. */
  lemma CrossTabObservable(ps: seq<(Value, Value)>)
    requires |ps| > 0
    ensures Observable(CrossTab(ps).counts, |CrossTab(ps).rows|, |CrossTab(ps).cols|)
  {
    var t := CrossTab(ps);
    var r, c := |t.rows|, |t.cols|;
    CrossTabEmpty(ps);
    forall k | 0 <= k < |ps| ensures ps[k].0 in t.rows && ps[k].1 in t.cols {
      assert Firsts(ps)[k] in Firsts(ps);
      assert Seconds(ps)[k] in Seconds(ps);
    }
    TallyRowSums(ps, t.rows, t.cols);
    TallyColSums(ps, t.rows, t.cols);
    forall i | 0 <= i < r ensures 0.0 < RowSums(t.counts)[i] {
      CountBounds(Firsts(ps), t.rows[i]);
    }
    forall j | 0 <= j < c ensures 0.0 < ColSums(t.counts, c)[j] {
      CountBounds(Seconds(ps), t.cols[j]);
    }
  }

  /** Cross-tabulating the swapped pairs swaps the labels and transposes
      the counts. */
  lemma CrossTabSwap(ps: seq<(Value, Value)>)
    ensures var t := CrossTab(ps);
      CrossTab(Swapped(ps)) == Contingency(t.cols, t.rows, Transpose(t.counts, |t.cols|))
  {
    assert Firsts(Swapped(ps)) == Seconds(ps);
    assert Seconds(Swapped(ps)) == Firsts(ps);
    TallyTranspose(ps, Dedup(Firsts(ps)), Dedup(Seconds(ps)));
  }
}

=== FILE: dataset.dfy ===
/** The table an analyzer holds: named columns of equal height, each of a
    declared kind, whose cells may be missing. */
module Dataset {
  import opened Wrappers

  datatype Value = Num(x: real) | Text(s: string)

  /** A numeric column holds numbers only; a categorical one holds any
      values, compared by equality. */
  datatype Kind = Numeric | Categorical

  /** A missing cell (NaN or None in pandas) is `None`. */
  type Cell = Option<Value>

  datatype Column = Column(kind: Kind, cells: seq<Cell>)

  datatype Frame = Frame(columns: map<string, Column>, height: nat)

  predicate Fits(c: Column, height: nat)
  {
    && |c.cells| == height
    && (c.kind == Numeric ==> forall k :: 0 <= k < height ==> c.cells[k].None? || c.cells[k].value.Num?)
  }

  predicate WellFormed(f: Frame)
  {
    forall name :: name in f.columns ==> Fits(f.columns[name], f.height)
  }

  type Table = f: Frame | WellFormed(f) witness Frame(map[], 0)

  /** pandas' `DataFrame.empty`: the table has no rows or no columns. */
  predicate IsEmpty(t: Table)
  {
    t.height == 0 || |t.columns| == 0
  }

  predicate HasColumn(t: Table, name: string)
  {
    name in t.columns
  }

  function Cells(t: Table, name: string): (cells: seq<Cell>)
    requires HasColumn(t, name)
    ensures |cells| == t.height
  {
    t.columns[name].cells
  }

  /** The non-missing values, in row order. */
  function Present(cells: seq<Cell>): (vs: seq<Value>)
    ensures |vs| <= |cells|
    ensures forall v :: v in vs <==> Some(v) in cells
  {
    if |cells| == 0 then []
    else
      var n := |cells| - 1;
      assert cells == cells[..n] + [cells[n]];
      var rest := Present(cells[..n]);
      if cells[n].Some? then rest + [cells[n].value] else rest
  }

  /** The number a cell holds, if it holds one. */
  function AsReal(c: Cell): (x: Option<real>)
    ensures x.Some? <==> c.Some? && c.value.Num?
  {
    if c.Some? && c.value.Num? then Some(c.value.x) else None
  }

  /** The non-missing numbers, in row order. */
  function Reals(cells: seq<Cell>): (xs: seq<real>)
    ensures |xs| <= |cells|
  {
    if |cells| == 0 then []
    else
      var n := |cells| - 1;
      var rest := Reals(cells[..n]);
      if AsReal(cells[n]).Some? then rest + [AsReal(cells[n]).value] else rest
  }

  /** In a numeric column every non-missing value is a number. */
  lemma {:induction false} NumericReals(cells: seq<Cell>)
    requires forall k :: 0 <= k < |cells| ==> cells[k].None? || cells[k].value.Num?
    ensures |Reals(cells)| == |Present(cells)|
  {
    if |cells| > 0 {
      NumericReals(cells[..|cells| - 1]);
    }
  }

  /** Every number summarised comes from a cell holding it. */
  lemma {:induction false} RealsFrom(cells: seq<Cell>, x: real)
    requires x in Reals(cells)
    ensures exists k :: 0 <= k < |cells| && cells[k] == Some(Num(x))
  {
    assert |cells| > 0;
    var n := |cells| - 1;
    if x in Reals(cells[..n]) {
      RealsFrom(cells[..n], x);
      var k :| 0 <= k < n && cells[..n][k] == Some(Num(x));
      assert cells[k] == Some(Num(x));
    } else {
      assert cells[n] == Some(Num(x));
    }
  }

  /** The pairs of values of the rows where both cells are present. */
  function PresentPairs(xs: seq<Cell>, ys: seq<Cell>): (ps: seq<(Value, Value)>)
    requires |xs| == |ys|
    ensures |ps| <= |xs|
  {
    if |xs| == 0 then []
    else
      var n := |xs| - 1;
      var rest := PresentPairs(xs[..n], ys[..n]);
      if xs[n].Some? && ys[n].Some? then rest + [(xs[n].value, ys[n].value)] else rest
  }

  function Swapped<A, B>(ps: seq<(A, B)>): (qs: seq<(B, A)>)
    ensures |qs| == |ps|
    ensures forall k :: 0 <= k < |ps| ==> qs[k] == (ps[k].1, ps[k].0)
  {
    seq(|ps|, k requires 0 <= k < |ps| => (ps[k].1, ps[k].0))
  }

  /** Pairing the columns the other way round swaps every pair. */
  lemma {:induction false} PresentPairsSwap(xs: seq<Cell>, ys: seq<Cell>)
    requires |xs| == |ys|
    ensures PresentPairs(ys, xs) == Swapped(PresentPairs(xs, ys))
  {
    if |xs| > 0 {
      var n := |xs| - 1;
      PresentPairsSwap(xs[..n], ys[..n]);
    }
  }

  /** Each row's two-part key: present when both its cells are. */
  function JoinKeys(xs: seq<Cell>, ys: seq<Cell>): (keys: seq<Option<(Value, Value)>>)
    requires |xs| == |ys|
    ensures |keys| == |xs|
    ensures forall k :: 0 <= k < |xs| ==>
      keys[k] == if xs[k].Some? && ys[k].Some? then Some((xs[k].value, ys[k].value)) else None
  {
    seq(|xs|, k requires 0 <= k < |xs| =>
      if xs[k].Some? && ys[k].Some? then Some((xs[k].value, ys[k].value)) else None)
  }

  /** The rows pandas' groupby keeps, those whose key is present, each with
      the number in the aggregated column (None when that cell is missing). */
  function Observations<K>(keys: seq<Option<K>>, vals: seq<Cell>): (obs: seq<(K, Option<real>)>)
    requires |keys| == |vals|
    ensures |obs| <= |keys|
  {
    if |keys| == 0 then []
    else
      var n := |keys| - 1;
      var rest := Observations(keys[..n], vals[..n]);
      if keys[n].Some? then rest + [(keys[n].value, AsReal(vals[n]))] else rest
  }
}

=== FILE: describe.dfy ===
/** pandas' `Series.describe` on the non-missing values of a column: for a
    numeric column count, mean, variance (std squared), min, the 25%, 50% and
    75% percentiles and max; for any other column count, unique, top and
    freq. */
module Describe {
  import opened Wrappers
  import opened Counting
  import opened Stats
  import opened Dataset

  datatype NumericStats = NumericStats(
    mean: real, variance: Option<real>, min: real, q1: real, median: real, q3: real, max: real)

  /** `stats` is None when there is no value to describe (pandas: NaN). */
  datatype NumericSummary = NumericSummary(count: nat, stats: Option<NumericStats>)

  /** The quartiles of the sorted values lie in order between the minimum
      and the maximum. */
  lemma QuartilesOrdered(xs: seq<real>)
    requires |xs| > 0
    ensures var s := Sort(xs);
      && |s| == |xs|
      && Minimum(xs) <= Quartile(s, 1) <= Quartile(s, 2) <= Quartile(s, 3) <= Maximum(xs)
  {
    SortEnds(xs);
    QuartileChain(Sort(xs));
  }

  lemma QuartileChain(s: seq<real>)
    requires Sorted(s) && |s| > 0
    ensures s[0] <= Quartile(s, 1) <= Quartile(s, 2) <= Quartile(s, 3) <= s[|s| - 1]
  {
    QuartileEnds(s);
    QuartileStep(s, 0);
    QuartileStep(s, 1);
    QuartileStep(s, 2);
    QuartileStep(s, 3);
  }

  function DescribeNumeric(xs: seq<real>): (d: NumericSummary)
    ensures d.count == |xs|
    ensures d.stats.Some? <==> |xs| > 0
    ensures d.stats.Some? ==> var st, s := d.stats.value, Sort(xs);
      && st.mean == Mean(xs)
      && st.min == Minimum(xs) && st.max == Maximum(xs)
      && st.q1 == Quartile(s, 1) && st.median == Quartile(s, 2) && st.q3 == Quartile(s, 3)
      && st.variance == (if |xs| >= 2 then Some(Variance(xs)) else None)
      && st.min <= st.q1 <= st.median <= st.q3 <= st.max
      && st.min <= st.mean <= st.max
      && (st.variance.Some? ==> 0.0 <= st.variance.value)
  {
    if |xs| == 0 then NumericSummary(0, None)
    else
      var s := Sort(xs);
      QuartilesOrdered(xs);
      var variance := if |xs| >= 2 then Some(Variance(xs)) else None;
      NumericSummary(|xs|, Some(NumericStats(
        Mean(xs), variance, Minimum(xs), Quartile(s, 1), Quartile(s, 2), Quartile(s, 3), Maximum(xs))))
  }

  /** `top` and `freq` are None when there is no value (pandas: NaN). */
  datatype CategoricalSummary = CategoricalSummary(count: nat, unique: nat, top: Option<Value>, freq: Option<nat>)

  /** A candidate occurring most often in `vs`. */
  function Mode(vs: seq<Value>, candidates: seq<Value>): (m: Value)
    requires |candidates| > 0
    ensures m in candidates
    ensures forall c :: c in candidates ==> Count(vs, c) <= Count(vs, m)
  {
    if |candidates| == 1 then candidates[0]
    else
      var n := |candidates| - 1;
      var best := Mode(vs, candidates[..n]);
      assert candidates == candidates[..n] + [candidates[n]];
      if Count(vs, best) < Count(vs, candidates[n]) then candidates[n] else best
  }

  function DescribeCategorical(vs: seq<Value>): (d: CategoricalSummary)
    ensures d.count == |vs|
    ensures d.unique == |set v | v in vs|
    ensures d.unique <= d.count
    ensures d.count >= 1 ==> d.unique >= 1
    ensures d.top.Some? <==> d.count > 0
    ensures d.freq.Some? <==> d.count > 0
    ensures d.top.Some? ==>
      && d.top.value in vs
      && d.freq == Some(Count(vs, d.top.value))
      && (forall v :: v in vs ==> Count(vs, v) <= d.freq.value)
      && d.freq.value <= d.count
  {
    var labels := Dedup(vs);
    DistinctCardinality(labels);
    assert (set v | v in labels) == (set v | v in vs);
    if |vs| == 0 then CategoricalSummary(0, |labels|, None, None)
    else
      assert vs[0] in labels;
      var top := Mode(vs, labels);
      CountBounds(vs, top);
      CategoricalSummary(|vs|, |labels|, Some(top), Some(Count(vs, top)))
  }
}

=== FILE: groupby.dfy ===
/** pandas' groupby: rows with a present key fall into one group per
    distinct key, in order of first occurrence, and a numeric column is
    aggregated per group over its non-missing values. */
module Grouping {
  import opened Wrappers
  import opened Sums
  import opened Counting
  import opened Matrix
  import opened Stats
  import opened Dataset
  import opened Crosstab

  /** The distinct keys, in order of first occurrence. */
  function Groups<K(==,!new)>(obs: seq<(K, Option<real>)>): (gs: seq<K>)
    ensures NoDuplicates(gs)
    ensures forall g :: g in gs <==> g in Firsts(obs)
  {
    Dedup(Firsts(obs))
  }

  /** The non-missing values of group `g`, in row order. */
  function ValuesOf<K(==)>(obs: seq<(K, Option<real>)>, g: K): (xs: seq<real>)
  {
    if |obs| == 0 then []
    else
      var n := |obs| - 1;
      var rest := ValuesOf(obs[..n], g);
      if obs[n].0 == g && obs[n].1.Some? then rest + [obs[n].1.value] else rest
  }

  /** The keys of the rows whose value is present. */
  function FilledKeys<K>(obs: seq<(K, Option<real>)>): (keys: seq<K>)
    ensures |keys| <= |obs|
    ensures forall k :: k in keys ==> k in Firsts(obs)
  {
    if |obs| == 0 then []
    else
      var n := |obs| - 1;
      assert Firsts(obs[..n]) <= Firsts(obs);
      var rest := FilledKeys(obs[..n]);
      if obs[n].1.Some? then rest + [obs[n].0] else rest
  }

  /** A group's number of values is the number of rows with its key and a
      present value. */
  lemma {:induction false} ValuesCount<K>(obs: seq<(K, Option<real>)>, g: K)
    ensures |ValuesOf(obs, g)| == Count(FilledKeys(obs), g)
  {
    if |obs| > 0 {
      ValuesCount(obs[..|obs| - 1], g);
    }
  }

  /** Every value of group `g` is a value of a row with key `g`. */
  lemma {:induction false} ValuesOfRows<K>(obs: seq<(K, Option<real>)>, g: K, x: real)
    requires x in ValuesOf(obs, g)
    ensures (g, Some(x)) in obs
  {
    var n := |obs| - 1;
    if x in ValuesOf(obs[..n], g) {
      ValuesOfRows(obs[..n], g, x);
      assert obs[..n] <= obs;
    }
  }

  datatype GroupStats = GroupStats(mean: Option<real>, min: Option<real>, max: Option<real>, count: nat)

  /** agg(["mean", "min", "max", "count"]) on one group's values: the count
      of values, and the rest only when there is at least one. */
  function Aggregate(xs: seq<real>): (s: GroupStats)
    ensures s.count == |xs|
    ensures s.mean.Some? <==> |xs| > 0
    ensures s.min.Some? <==> |xs| > 0
    ensures s.max.Some? <==> |xs| > 0
    ensures s.mean.Some? ==> s.mean.value * |xs| as real == Sum(xs)
    ensures s.mean.Some? ==> s.min.value <= s.mean.value <= s.max.value
    ensures |xs| > 0 ==> s.mean == Some(Mean(xs)) && s.min == Some(Minimum(xs)) && s.max == Some(Maximum(xs))
  {
    if |xs| == 0 then GroupStats(None, None, None, 0)
    else GroupStats(Some(Mean(xs)), Some(Minimum(xs)), Some(Maximum(xs)), |xs|)
  }

  /** One row per group, holding its key and its aggregates. */
  function GroupedStats<K(==,!new)>(obs: seq<(K, Option<real>)>): (rows: seq<(K, GroupStats)>)
    ensures |rows| == |Groups(obs)|
    ensures forall i :: 0 <= i < |rows| ==> rows[i].0 == Groups(obs)[i]
  {
    var gs := Groups(obs);
    seq(|gs|, i requires 0 <= i < |gs| => (gs[i], Aggregate(ValuesOf(obs, gs[i]))))
  }

  /** The aggregates of the group with key `g`, if there is one. */
  function Lookup<K(==)>(rows: seq<(K, GroupStats)>, g: K): (s: Option<GroupStats>)
    ensures s.None? <==> forall i :: 0 <= i < |rows| ==> rows[i].0 != g
    ensures s.Some? ==> exists i :: 0 <= i < |rows| && rows[i] == (g, s.value)
  {
    if |rows| == 0 then None
    else if rows[0].0 == g then Some(rows[0].1)
    else
      var s := Lookup(rows[1..], g);
      assert forall i :: 1 <= i < |rows| ==> rows[i] == rows[1..][i - 1];
      s
  }

  /** Exactly the observed keys have a group, and its aggregates are those
      of its values. */
  lemma LookupGrouped<K(!new)>(obs: seq<(K, Option<real>)>, g: K)
    ensures Lookup(GroupedStats(obs), g) ==
      if g in Firsts(obs) then Some(Aggregate(ValuesOf(obs, g))) else None
  {
    var rows, gs := GroupedStats(obs), Groups(obs);
    if g in Firsts(obs) {
      var i :| 0 <= i < |gs| && gs[i] == g;
      assert rows[i].0 == g;
    } else {
      assert forall i :: 0 <= i < |rows| ==> rows[i].0 == gs[i];
    }
  }

  // ---- Pivot by a two-part key ------------------------------------------

  /** A table indexed by the first part of the key and with a column per
      second part; a cell is None where there is no such group, or where the
      picked aggregate is undefined. */
  datatype Pivot<V> = Pivot(index: seq<Value>, columns: seq<Value>, cells: seq<seq<Option<V>>>)

  function MeanOf(s: GroupStats): Option<real>
  {
    s.mean
  }

  function CountOf(s: GroupStats): Option<nat>
  {
    Some(s.count)
  }

  /** `pivot(index=first part, columns=second part, values=picked)` over the
      aggregated groups. */
  function PivotOf<V>(rows: seq<((Value, Value), GroupStats)>, pick: GroupStats -> Option<V>): (p: Pivot<V>)
    ensures NoDuplicates(p.index) && NoDuplicates(p.columns)
    ensures IsMatrix(p.cells, |p.index|, |p.columns|)
  {
    var keys := seq(|rows|, k requires 0 <= k < |rows| => rows[k].0);
    var index, columns := Dedup(Firsts(keys)), Dedup(Seconds(keys));
    Pivot(index, columns,
      seq(|index|, i requires 0 <= i < |index| =>
        seq(|columns|, j requires 0 <= j < |columns| => PivotCell(rows, (index[i], columns[j]), pick))))
  }

  function PivotCell<V>(rows: seq<((Value, Value), GroupStats)>, key: (Value, Value), pick: GroupStats -> Option<V>): Option<V>
  {
    match Lookup(rows, key)
    case None => None
    case Some(s) => pick(s)
  }

  /** The index of the pivot of the grouped statistics holds exactly the
      observed first key parts, and its columns the observed second parts. */
  lemma PivotLabels<V>(obs: seq<((Value, Value), Option<real>)>, pick: GroupStats -> Option<V>)
    ensures forall a :: a in PivotOf(GroupedStats(obs), pick).index <==> a in Firsts(Firsts(obs))
    ensures forall b :: b in PivotOf(GroupedStats(obs), pick).columns <==> b in Seconds(Firsts(obs))
  {
    var rows := GroupedStats(obs);
    var keys := seq(|rows|, k requires 0 <= k < |rows| => rows[k].0);
    assert keys == Groups(obs);
    SameParts(keys, Firsts(obs));
  }

  /** Two lists of pairs with the same elements have the same first parts
      and the same second parts. */
  lemma SameParts(xs: seq<(Value, Value)>, ys: seq<(Value, Value)>)
    requires forall g :: g in xs <==> g in ys
    ensures forall a :: a in Firsts(xs) <==> a in Firsts(ys)
    ensures forall b :: b in Seconds(xs) <==> b in Seconds(ys)
  {
    forall a | a in Firsts(xs) ensures a in Firsts(ys) {
      var i :| 0 <= i < |xs| && Firsts(xs)[i] == a;
      assert xs[i] in ys;
      var j :| 0 <= j < |ys| && ys[j] == xs[i];
      assert Firsts(ys)[j] == a;
    }
    forall a | a in Firsts(ys) ensures a in Firsts(xs) {
      var j :| 0 <= j < |ys| && Firsts(ys)[j] == a;
      assert ys[j] in xs;
      var i :| 0 <= i < |xs| && xs[i] == ys[j];
      assert Firsts(xs)[i] == a;
    }
    forall b | b in Seconds(xs) ensures b in Seconds(ys) {
      var i :| 0 <= i < |xs| && Seconds(xs)[i] == b;
      assert xs[i] in ys;
      var j :| 0 <= j < |ys| && ys[j] == xs[i];
      assert Seconds(ys)[j] == b;
    }
    forall b | b in Seconds(ys) ensures b in Seconds(xs) {
      var j :| 0 <= j < |ys| && Seconds(ys)[j] == b;
      assert ys[j] in xs;
      var i :| 0 <= i < |xs| && xs[i] == ys[j];
      assert Seconds(xs)[i] == b;
    }
  }

  /** A count-pivot cell holds the number of rows with its key and a
      present value, and exists exactly for the observed keys. */
  lemma CountPivotCell(obs: seq<((Value, Value), Option<real>)>, i: nat, j: nat)
    requires var p := PivotOf(GroupedStats(obs), CountOf); i < |p.index| && j < |p.columns|
    ensures var p := PivotOf(GroupedStats(obs), CountOf);
      var key := (p.index[i], p.columns[j]);
      p.cells[i][j] == if key in Firsts(obs) then Some(Count(FilledKeys(obs), key)) else None
  {
    var p := PivotOf(GroupedStats(obs), CountOf);
    var key := (p.index[i], p.columns[j]);
    LookupGrouped(obs, key);
    ValuesCount(obs, key);
  }

  /** A mean-pivot cell holds the mean of its group's present values (so
      Aggregate's bounds apply to it), and exists exactly for the observed
      keys with at least one such value. */
  lemma MeanPivotCell(obs: seq<((Value, Value), Option<real>)>, i: nat, j: nat)
    requires var p := PivotOf(GroupedStats(obs), MeanOf); i < |p.index| && j < |p.columns|
    ensures var p := PivotOf(GroupedStats(obs), MeanOf);
      var key := (p.index[i], p.columns[j]);
      && (p.cells[i][j].Some? <==> key in Firsts(obs) && |ValuesOf(obs, key)| > 0)
      && (p.cells[i][j].Some? ==> p.cells[i][j] == Aggregate(ValuesOf(obs, key)).mean)
  {
    var p := PivotOf(GroupedStats(obs), MeanOf);
    LookupGrouped(obs, (p.index[i], p.columns[j]));
  }

  /** Both pivots come from the same grouping: same labels, and a mean
      exactly where the count is positive. */
  lemma PivotsAgree(obs: seq<((Value, Value), Option<real>)>, i: nat, j: nat)
    requires var p := PivotOf(GroupedStats(obs), MeanOf); i < |p.index| && j < |p.columns|
    ensures var p, q := PivotOf(GroupedStats(obs), MeanOf), PivotOf(GroupedStats(obs), CountOf);
      && p.index == q.index && p.columns == q.columns
      && (p.cells[i][j].Some? <==> q.cells[i][j].Some? && q.cells[i][j].value > 0)
  {
    var p := PivotOf(GroupedStats(obs), MeanOf);
    LookupGrouped(obs, (p.index[i], p.columns[j]));
  }

  /** The count-pivot cells as numbers, an absent cell counting zero. */
  function Filled(cells: seq<seq<Option<nat>>>, r: nat, c: nat): (m: seq<seq<real>>)
    requires IsMatrix(cells, r, c)
    ensures IsMatrix(m, r, c)
  {
    seq(r, i requires 0 <= i < r =>
      seq(c, j requires 0 <= j < c => if cells[i][j].Some? then cells[i][j].value as real else 0.0))
  }

  /** The count-pivot cells add up to the number of rows with both key parts
      and the value present. */
  lemma CountPivotTotal(obs: seq<((Value, Value), Option<real>)>)
    ensures var p := PivotOf(GroupedStats(obs), CountOf);
      Total(Filled(p.cells, |p.index|, |p.columns|)) == |FilledKeys(obs)| as real
  {
    var p := PivotOf(GroupedStats(obs), CountOf);
    FilledIsTally(obs);
    FilledKeysLabelled(obs);
    TallyTotal(FilledKeys(obs), p.index, p.columns);
  }

  /** With absent cells as zero, the count pivot is the tally of the keys of
      the rows with a present value. */
  lemma FilledIsTally(obs: seq<((Value, Value), Option<real>)>)
    ensures var p := PivotOf(GroupedStats(obs), CountOf);
      Filled(p.cells, |p.index|, |p.columns|) == Tally(FilledKeys(obs), p.index, p.columns)
  {
    var p := PivotOf(GroupedStats(obs), CountOf);
    var r, c := |p.index|, |p.columns|;
    var fk := FilledKeys(obs);
    var filled, tally := Filled(p.cells, r, c), Tally(fk, p.index, p.columns);
    forall i, j | 0 <= i < r && 0 <= j < c ensures filled[i][j] == tally[i][j] {
      CountPivotCell(obs, i, j);
      TallyAt(fk, p.index, p.columns, i, j);
      CountBounds(fk, (p.index[i], p.columns[j]));
    }
    assert forall i :: 0 <= i < r ==> filled[i] == tally[i];
  }

  lemma FilledKeysLabelled(obs: seq<((Value, Value), Option<real>)>)
    ensures var p := PivotOf(GroupedStats(obs), CountOf);
      forall k :: 0 <= k < |FilledKeys(obs)| ==>
        FilledKeys(obs)[k].0 in p.index && FilledKeys(obs)[k].1 in p.columns
  {
    var p := PivotOf(GroupedStats(obs), CountOf);
    var fk := FilledKeys(obs);
    PivotLabels(obs, CountOf);
    forall k | 0 <= k < |fk| ensures fk[k].0 in p.index && fk[k].1 in p.columns {
      assert fk[k] in Firsts(obs);
      var i :| 0 <= i < |obs| && Firsts(obs)[i] == fk[k];
      assert Firsts(Firsts(obs))[i] == fk[k].0;
      assert Seconds(Firsts(obs))[i] == fk[k].1;
    }
  }

  // ---- Mean per group of a single key -----------------------------------

  /** `groupby(key)[value].mean()`: each group with the mean of its present
      values, None where it has none. */
  function GroupMeans(obs: seq<(Value, Option<real>)>): (means: seq<(Value, Option<real>)>)
    ensures |means| == |Groups(obs)|
    ensures forall i :: 0 <= i < |means| ==> means[i].0 == Groups(obs)[i]
  {
    var gs := Groups(obs);
    seq(|gs|, i requires 0 <= i < |gs| => (gs[i], Aggregate(ValuesOf(obs, gs[i])).mean))
  }

  /** Every present value is 0 or 1. */
  predicate IndicatorValued<K>(obs: seq<(K, Option<real>)>)
  {
    forall k :: 0 <= k < |obs| && obs[k].1.Some? ==> obs[k].1.value == 0.0 || obs[k].1.value == 1.0
  }

  /** When every present value is 0 or 1, a group's mean is its share of
      ones: the number of ones over the number of present values, in [0, 1]. */
  lemma GroupMeanOfIndicators(obs: seq<(Value, Option<real>)>, i: nat)
    requires i < |GroupMeans(obs)|
    requires IndicatorValued(obs)
    ensures var rate, xs := GroupMeans(obs)[i].1, ValuesOf(obs, GroupMeans(obs)[i].0);
      && (rate.Some? <==> |xs| > 0)
      && (rate.Some? ==> rate.value == Count(xs, 1.0) as real / |xs| as real && 0.0 <= rate.value <= 1.0)
  {
    var g := GroupMeans(obs)[i].0;
    var xs := ValuesOf(obs, g);
    if |xs| > 0 {
      IndicatorValues(obs, g);
      ShareOfOnes(xs);
    }
  }

  lemma IndicatorValues(obs: seq<(Value, Option<real>)>, g: Value)
    requires IndicatorValued(obs)
    ensures forall k :: 0 <= k < |ValuesOf(obs, g)| ==> ValuesOf(obs, g)[k] == 0.0 || ValuesOf(obs, g)[k] == 1.0
  {
    var xs := ValuesOf(obs, g);
    forall k | 0 <= k < |xs| ensures xs[k] == 0.0 || xs[k] == 1.0 {
      ValuesOfRows(obs, g, xs[k]);
    }
  }

  /** The mean of zeros and ones is the share of ones, a value in [0, 1]. */
  lemma ShareOfOnes(xs: seq<real>)
    requires |xs| > 0
    requires forall k :: 0 <= k < |xs| ==> xs[k] == 0.0 || xs[k] == 1.0
    ensures Mean(xs) == Count(xs, 1.0) as real / |xs| as real
    ensures 0.0 <= Mean(xs) <= 1.0
  {
    SumOfIndicators(xs);
  }

  // ---- Group values read off the table ------------------------------------

  /** The cells of `vals` on the rows whose key is `g`; every other row reads
      as missing. */
  function GroupCells<K(==)>(keys: seq<Option<K>>, vals: seq<Cell>, g: K): (cells: seq<Cell>)
    requires |keys| == |vals|
    ensures |cells| == |keys|
    ensures forall k :: 0 <= k < |keys| ==> cells[k] == if keys[k] == Some(g) then vals[k] else None
  {
    seq(|keys|, k requires 0 <= k < |keys| => if keys[k] == Some(g) then vals[k] else None)
  }

  /** The cells of `vals` on the rows that have a key. */
  function KeyedCells<K>(keys: seq<Option<K>>, vals: seq<Cell>): (cells: seq<Cell>)
    requires |keys| == |vals|
    ensures |cells| == |keys|
    ensures forall k :: 0 <= k < |keys| ==> cells[k] == if keys[k].Some? then vals[k] else None
  {
    seq(|keys|, k requires 0 <= k < |keys| => if keys[k].Some? then vals[k] else None)
  }

  /** A group's values are the numbers on the table's rows with that key,
      in row order: each kept row carries its own value. */
  lemma {:induction false} ValuesOfObservations<K>(keys: seq<Option<K>>, vals: seq<Cell>, g: K)
    requires |keys| == |vals|
    ensures ValuesOf(Observations(keys, vals), g) == Reals(GroupCells(keys, vals, g))
  {
    if |keys| > 0 {
      var n := |keys| - 1;
      ValuesOfObservations(keys[..n], vals[..n], g);
      var cells := GroupCells(keys, vals, g);
      assert cells[..n] == GroupCells(keys[..n], vals[..n], g);
      var rest := Observations(keys[..n], vals[..n]);
      if keys[n].Some? {
        var obs := rest + [(keys[n].value, AsReal(vals[n]))];
        assert Observations(keys, vals) == obs;
        assert obs[..|rest|] == rest;
      } else {
        assert Observations(keys, vals) == rest;
      }
    }
  }

  /** The rows kept with a present value are the table's rows that have a
      key and a number. */
  lemma {:induction false} FilledKeysOfObservations<K>(keys: seq<Option<K>>, vals: seq<Cell>)
    requires |keys| == |vals|
    ensures |FilledKeys(Observations(keys, vals))| == |Reals(KeyedCells(keys, vals))|
  {
    if |keys| > 0 {
      var n := |keys| - 1;
      FilledKeysOfObservations(keys[..n], vals[..n]);
      var cells := KeyedCells(keys, vals);
      assert cells[..n] == KeyedCells(keys[..n], vals[..n]);
      var rest := Observations(keys[..n], vals[..n]);
      if keys[n].Some? {
        var obs := rest + [(keys[n].value, AsReal(vals[n]))];
        assert Observations(keys, vals) == obs;
        assert obs[..|rest|] == rest;
      } else {
        assert Observations(keys, vals) == rest;
      }
    }
  }
}

=== FILE: matrix.dfy ===
/** Two-way tables of reals: row and column totals, the grand total, and
    transposition, which is what swapping the two variables of a
    contingency table does. */
module Matrix {
  import opened Sums

  /** `m` has `r` rows of `c` entries each. */
  predicate IsMatrix<T>(m: seq<seq<T>>, r: nat, c: nat)
  {
    |m| == r && forall i :: 0 <= i < r ==> |m[i]| == c
  }

  /** The `j`-th column of `m`, top to bottom. */
  function Column<T>(m: seq<seq<T>>, j: nat): (col: seq<T>)
    requires forall i :: 0 <= i < |m| ==> j < |m[i]|
    ensures |col| == |m|
    ensures forall i :: 0 <= i < |m| ==> col[i] == m[i][j]
  {
    seq(|m|, i requires 0 <= i < |m| => m[i][j])
  }

  /** Rows become columns: entry (i, j) moves to (j, i). */
  function Transpose<T>(m: seq<seq<T>>, c: nat): (t: seq<seq<T>>)
    requires IsMatrix(m, |m|, c)
    ensures IsMatrix(t, c, |m|)
    ensures forall i, j :: 0 <= i < |m| && 0 <= j < c ==> t[j][i] == m[i][j]
  {
    seq(c, j requires 0 <= j < c => Column(m, j))
  }

  function RowSums(m: seq<seq<real>>): (s: seq<real>)
    ensures |s| == |m|
  {
    seq(|m|, i requires 0 <= i < |m| => Sum(m[i]))
  }

  function ColSums(m: seq<seq<real>>, c: nat): (s: seq<real>)
    requires IsMatrix(m, |m|, c)
    ensures |s| == c
  {
    seq(c, j requires 0 <= j < c => Sum(Column(m, j)))
  }

  /** The grand total: the sum of the row totals. */
  function Total(m: seq<seq<real>>): real
  {
    Sum(RowSums(m))
  }

  /** The column totals of `m` are the row totals of its transpose, and the
      other way round. */
  lemma MarginsTranspose(m: seq<seq<real>>, c: nat)
    requires IsMatrix(m, |m|, c)
    ensures RowSums(Transpose(m, c)) == ColSums(m, c)
    ensures ColSums(Transpose(m, c), |m|) == RowSums(m)
  {
    var t := Transpose(m, c);
    forall i | 0 <= i < |m| ensures Column(t, i) == m[i] { }
  }

  /** Adding up the column totals gives the same grand total as adding up the
      row totals. */
  lemma {:induction false} TotalByColumns(m: seq<seq<real>>, c: nat)
    requires IsMatrix(m, |m|, c)
    ensures Sum(ColSums(m, c)) == Total(m)
  {
    if |m| == 0 {
      SumConst(ColSums(m, c), 0.0);
    } else {
      var n := |m| - 1;
      var m' := m[..n];
      assert IsMatrix(m', n, c);
      TotalByColumns(m', c);
      ColSumsOfLastRow(m, c);
      SumAdd(ColSums(m', c), m[n], ColSums(m, c));
      TotalOfLastRow(m);
    }
  }

  lemma ColSumsOfLastRow(m: seq<seq<real>>, c: nat)
    requires IsMatrix(m, |m|, c) && |m| > 0
    ensures forall j :: 0 <= j < c ==>
      ColSums(m, c)[j] == ColSums(m[..|m| - 1], c)[j] + m[|m| - 1][j]
  {
    var n := |m| - 1;
    forall j | 0 <= j < c
      ensures ColSums(m, c)[j] == ColSums(m[..n], c)[j] + m[n][j]
    {
      assert Column(m, j)[..n] == Column(m[..n], j);
    }
  }

  lemma TotalOfLastRow(m: seq<seq<real>>)
    requires |m| > 0
    ensures Total(m) == Total(m[..|m| - 1]) + Sum(m[|m| - 1])
  {
    assert RowSums(m)[..|m| - 1] == RowSums(m[..|m| - 1]);
  }

  lemma TotalTranspose(m: seq<seq<real>>, c: nat)
    requires IsMatrix(m, |m|, c)
    ensures Total(Transpose(m, c)) == Total(m)
  {
    MarginsTranspose(m, c);
    TotalByColumns(m, c);
  }

  /** The grand total distributes over entrywise addition. */
  lemma TotalAdd(a: seq<seq<real>>, b: seq<seq<real>>, w: seq<seq<real>>, r: nat, c: nat)
    requires IsMatrix(a, r, c) && IsMatrix(b, r, c) && IsMatrix(w, r, c)
    requires forall i, j :: 0 <= i < r && 0 <= j < c ==> w[i][j] == a[i][j] + b[i][j]
    ensures Total(w) == Total(a) + Total(b)
  {
    forall i | 0 <= i < r ensures RowSums(w)[i] == RowSums(a)[i] + RowSums(b)[i] {
      SumAdd(a[i], b[i], w[i]);
    }
    SumAdd(RowSums(a), RowSums(b), RowSums(w));
  }

  /** The grand total distributes over entrywise subtraction. */
  lemma TotalSub(a: seq<seq<real>>, b: seq<seq<real>>, w: seq<seq<real>>, r: nat, c: nat)
    requires IsMatrix(a, r, c) && IsMatrix(b, r, c) && IsMatrix(w, r, c)
    requires forall i, j :: 0 <= i < r && 0 <= j < c ==> w[i][j] == a[i][j] - b[i][j]
    ensures Total(w) == Total(a) - Total(b)
  {
    forall i | 0 <= i < r ensures RowSums(w)[i] == RowSums(a)[i] - RowSums(b)[i] {
      SumSub(a[i], b[i], w[i]);
    }
    SumSub(RowSums(a), RowSums(b), RowSums(w));
  }

  lemma TotalMono(a: seq<seq<real>>, b: seq<seq<real>>, r: nat, c: nat)
    requires IsMatrix(a, r, c) && IsMatrix(b, r, c)
    requires forall i, j :: 0 <= i < r && 0 <= j < c ==> a[i][j] <= b[i][j]
    ensures Total(a) <= Total(b)
  {
    forall i | 0 <= i < r ensures RowSums(a)[i] <= RowSums(b)[i] {
      SumMono(a[i], b[i]);
    }
    SumMono(RowSums(a), RowSums(b));
  }

  lemma TotalNonneg(a: seq<seq<real>>, r: nat, c: nat)
    requires IsMatrix(a, r, c)
    requires forall i, j :: 0 <= i < r && 0 <= j < c ==> 0.0 <= a[i][j]
    ensures 0.0 <= Total(a)
  {
    forall i | 0 <= i < r ensures 0.0 <= RowSums(a)[i] {
      SumNonneg(a[i]);
    }
    SumNonneg(RowSums(a));
  }
}

=== FILE: stats.dfy ===
/** What pandas' `describe` computes for a numeric column, on its non-missing
    values: the extremes, the mean, the Bessel-corrected variance (the square
    of `std`) and the 25%, 50% and 75% percentiles by linear interpolation
    between order statistics. */
module Stats {
  import opened Sums
  import opened Counting

  function Minimum(xs: seq<real>): (m: real)
    requires |xs| > 0
    ensures m in xs
    ensures forall k :: 0 <= k < |xs| ==> m <= xs[k]
  {
    if |xs| == 1 then xs[0]
    else
      var n := |xs| - 1;
      var rest := Minimum(xs[..n]);
      assert xs[..n] <= xs;
      if xs[n] < rest then xs[n] else rest
  }

  function Maximum(xs: seq<real>): (m: real)
    requires |xs| > 0
    ensures m in xs
    ensures forall k :: 0 <= k < |xs| ==> xs[k] <= m
  {
    if |xs| == 1 then xs[0]
    else
      var n := |xs| - 1;
      var rest := Maximum(xs[..n]);
      assert xs[..n] <= xs;
      if rest < xs[n] then xs[n] else rest
  }

  /** The arithmetic mean; it lies between the smallest and the largest
      value. */
  function Mean(xs: seq<real>): (m: real)
    requires |xs| > 0
    ensures m * |xs| as real == Sum(xs)
    ensures Minimum(xs) <= m <= Maximum(xs)
  {
    var n := |xs| as real;
    SumBoundedBelow(xs, Minimum(xs));
    SumBoundedBy(xs, Maximum(xs));
    Average(Sum(xs), n, Minimum(xs), Maximum(xs));
    Sum(xs) / n
  }

  /** A total of n values in [lo, hi] averages to a value in [lo, hi]. */
  lemma Average(total: real, n: real, lo: real, hi: real)
    requires 0.0 < n && n * lo <= total <= n * hi
    ensures total / n * n == total
    ensures lo <= total / n <= hi
  {
    var a := total / n;
    assert a * n == total;
  }

  /** The mean of a sequence of zeros and ones is the share of ones. */
  lemma {:induction false} SumOfIndicators(xs: seq<real>)
    requires forall k :: 0 <= k < |xs| ==> xs[k] == 0.0 || xs[k] == 1.0
    ensures Sum(xs) == Count(xs, 1.0) as real
  {
    if |xs| > 0 {
      SumOfIndicators(xs[..|xs| - 1]);
    }
  }

  function SquaredDeviations(xs: seq<real>, m: real): (d: seq<real>)
    ensures |d| == |xs|
    ensures forall k :: 0 <= k < |xs| ==> 0.0 <= d[k]
  {
    seq(|xs|, k requires 0 <= k < |xs| => Square(xs[k] - m))
  }

  function Square(x: real): (y: real)
    ensures 0.0 <= y
  {
    x * x
  }

  /** The sample variance, with divisor n - 1; pandas reports its square
      root as `std`, which is undefined for fewer than two values. */
  function Variance(xs: seq<real>): (v: real)
    requires 2 <= |xs|
    ensures 0.0 <= v
  {
    SumNonneg(SquaredDeviations(xs, Mean(xs)));
    Sum(SquaredDeviations(xs, Mean(xs))) / (|xs| - 1) as real
  }

  /** Values that are all equal have mean that value and variance zero. */
  lemma ConstantVariance(xs: seq<real>, x: real)
    requires 2 <= |xs|
    requires forall k :: 0 <= k < |xs| ==> xs[k] == x
    ensures Mean(xs) == x
    ensures Variance(xs) == 0.0
  {
    assert Minimum(xs) == x && Maximum(xs) == x;
    SumConst(SquaredDeviations(xs, x), 0.0);
  }

  predicate Sorted(s: seq<real>)
  {
    forall i, j :: 0 <= i <= j < |s| ==> s[i] <= s[j]
  }

  function Insert(x: real, s: seq<real>): (t: seq<real>)
    ensures multiset(t) == multiset(s) + multiset{x}
  {
    if |s| == 0 || x <= s[0] then [x] + s
    else
      assert s == [s[0]] + s[1..];
      [s[0]] + Insert(x, s[1..])
  }

  /** Inserting into sorted values keeps them sorted. */
  lemma {:induction false} InsertSorted(x: real, s: seq<real>)
    requires Sorted(s)
    ensures Sorted(Insert(x, s))
  {
    if |s| > 0 && s[0] < x {
      var rest := Insert(x, s[1..]);
      InsertSorted(x, s[1..]);
      forall k | 0 <= k < |rest| ensures s[0] <= rest[k] {
        assert rest[k] in multiset(s[1..]) + multiset{x};
      }
    }
  }

  /** The values in ascending order. */
  function Sort(xs: seq<real>): (t: seq<real>)
    ensures Sorted(t)
    ensures multiset(t) == multiset(xs)
  {
    if |xs| == 0 then []
    else
      var n := |xs| - 1;
      assert xs == xs[..n] + [xs[n]];
      InsertSorted(xs[n], Sort(xs[..n]));
      Insert(xs[n], Sort(xs[..n]))
  }

  /** The ends of the sorted values are the minimum and the maximum. */
  lemma SortEnds(xs: seq<real>)
    requires |xs| > 0
    ensures |Sort(xs)| == |xs|
    ensures Sort(xs)[0] == Minimum(xs)
    ensures Sort(xs)[|xs| - 1] == Maximum(xs)
  {
    var t := Sort(xs);
    assert |t| == |multiset(t)| == |multiset(xs)| == |xs|;
    assert t[0] in multiset(xs) && t[|xs| - 1] in multiset(xs);
    assert Minimum(xs) in multiset(t) && Maximum(xs) in multiset(t);
  }

  /** numpy's linear percentile at k/4 of the sorted values `s`: the order
      statistic at position (n - 1) k / 4, interpolated between its two
      neighbours when that position is fractional. */
  function Quartile(s: seq<real>, k: nat): (q: real)
    requires |s| > 0 && k <= 4
  {
    var pos := (|s| - 1) * k;
    PositionBounds(|s| - 1, k);
    var lo := pos / 4;
    if pos % 4 == 0 then s[lo]
    else s[lo] + (s[lo + 1] - s[lo]) * ((pos % 4) as real / 4.0)
  }

  /** Four times the position of a quartile lies within the m + 1 values,
      with a right neighbour whenever it is fractional. */
  lemma PositionBounds(m: nat, k: nat)
    requires k <= 4
    ensures (m * k) / 4 <= m
    ensures (m * k) % 4 != 0 ==> (m * k) / 4 < m
    ensures k == 0 ==> m * k == 0
    ensures k == 4 ==> m * k == 4 * m
  {
    if k == 0 {
      assert m * k == 0;
    } else if k == 1 {
      assert m * k == m;
    } else if k == 2 {
      assert m * k == 2 * m;
    } else if k == 3 {
      assert m * k == 3 * m;
    } else {
      assert m * k == 4 * m;
    }
  }

  /** A value interpolated a fraction t of the way from a to b. */
  lemma Interpolation(a: real, b: real, t: real, t': real)
    requires a <= b && 0.0 <= t <= t' <= 1.0
    ensures a <= a + (b - a) * t <= a + (b - a) * t' <= b
  {
    assert (b - a) * t <= (b - a) * t';
    assert (b - a) * t' <= (b - a) * 1.0;
  }

  /** The quartile lies between the order statistic at its position and the
      next one. */
  lemma QuartileWithin(s: seq<real>, k: nat)
    requires Sorted(s) && |s| > 0 && k <= 4
    ensures var pos := (|s| - 1) * k;
      && pos / 4 < |s|
      && s[pos / 4] <= Quartile(s, k)
      && (pos % 4 != 0 ==> pos / 4 + 1 < |s| && Quartile(s, k) <= s[pos / 4 + 1])
      && (pos % 4 == 0 ==> Quartile(s, k) == s[pos / 4])
  {
    var pos := (|s| - 1) * k;
    PositionBounds(|s| - 1, k);
    var lo := pos / 4;
    if pos % 4 != 0 {
      var f := (pos % 4) as real / 4.0;
      assert Quartile(s, k) == s[lo] + (s[lo + 1] - s[lo]) * f;
      Interpolation(s[lo], s[lo + 1], f, f);
    } else {
      assert Quartile(s, k) == s[lo];
    }
  }

  /** The 0% and 100% percentiles are the first and last order statistics. */
  lemma QuartileEnds(s: seq<real>)
    requires |s| > 0
    ensures Quartile(s, 0) == s[0]
    ensures Quartile(s, 4) == s[|s| - 1]
  {
    PositionBounds(|s| - 1, 0);
    PositionBounds(|s| - 1, 4);
  }

  lemma NextPosition(m: nat, k: nat)
    ensures m * (k + 1) == m * k + m
  {
  }

  /** Each quartile is at most the next one. */
  lemma QuartileStep(s: seq<real>, k: nat)
    requires Sorted(s) && |s| > 0 && k < 4
    ensures Quartile(s, k) <= Quartile(s, k + 1)
  {
    var m := |s| - 1;
    var pos, pos' := m * k, m * (k + 1);
    NextPosition(m, k);
    QuartileWithin(s, k);
    QuartileWithin(s, k + 1);
    var lo, lo' := pos / 4, pos' / 4;
    if lo < lo' {
      assert s[lo + 1] <= s[lo'];
    } else if pos % 4 != 0 {
      assert pos' % 4 != 0 && pos % 4 <= pos' % 4;
      Interpolation(s[lo], s[lo + 1], (pos % 4) as real / 4.0, (pos' % 4) as real / 4.0);
    }
  }
}

=== FILE: sums.dfy ===
/** Finite sums of real numbers: the arithmetic under every total, mean and
    test statistic of the analysis. */
module Sums {

  /** The sum of the elements of `s`, folded from the front. */
  function Sum(s: seq<real>): real
  {
    if |s| == 0 then 0.0 else Sum(s[..|s| - 1]) + s[|s| - 1]
  }

  lemma {:induction false} SumNonneg(s: seq<real>)
    requires forall k :: 0 <= k < |s| ==> 0.0 <= s[k]
    ensures 0.0 <= Sum(s)
  {
    if |s| > 0 {
      SumNonneg(s[..|s| - 1]);
    }
  }

  /** A non-negative term never exceeds the sum it is part of. */
  lemma {:induction false} SumElementLe(s: seq<real>, k: nat)
    requires k < |s|
    requires forall i :: 0 <= i < |s| ==> 0.0 <= s[i]
    ensures s[k] <= Sum(s)
  {
    var n := |s| - 1;
    SumNonneg(s[..n]);
    if k < n {
      SumElementLe(s[..n], k);
    }
  }

  lemma {:induction false} SumMono(a: seq<real>, b: seq<real>)
    requires |a| == |b|
    requires forall k :: 0 <= k < |a| ==> a[k] <= b[k]
    ensures Sum(a) <= Sum(b)
  {
    if |a| > 0 {
      SumMono(a[..|a| - 1], b[..|b| - 1]);
    }
  }

  /** Summation distributes over elementwise addition. */
  lemma {:induction false} SumAdd(a: seq<real>, b: seq<real>, w: seq<real>)
    requires |a| == |w| && |b| == |w|
    requires forall k :: 0 <= k < |w| ==> w[k] == a[k] + b[k]
    ensures Sum(w) == Sum(a) + Sum(b)
  {
    if |w| > 0 {
      var n := |w| - 1;
      SumAdd(a[..n], b[..n], w[..n]);
    }
  }

  /** Summation distributes over elementwise subtraction. */
  lemma {:induction false} SumSub(a: seq<real>, b: seq<real>, w: seq<real>)
    requires |a| == |w| && |b| == |w|
    requires forall k :: 0 <= k < |w| ==> w[k] == a[k] - b[k]
    ensures Sum(w) == Sum(a) - Sum(b)
  {
    if |w| > 0 {
      var n := |w| - 1;
      SumSub(a[..n], b[..n], w[..n]);
    }
  }

  /** Every element of `s` multiplied by `x`. */
  function Scaled(s: seq<real>, x: real): (w: seq<real>)
    ensures |w| == |s|
  {
    seq(|s|, k requires 0 <= k < |s| => x * s[k])
  }

  /** A common factor comes out of a sum. */
  lemma {:induction false} ScaledSum(s: seq<real>, x: real)
    ensures Sum(Scaled(s, x)) == x * Sum(s)
  {
    if |s| > 0 {
      var n := |s| - 1;
      ScaledPrefix(s, x, n);
      ScaledSum(s[..n], x);
      Distribute(x, Sum(s[..n]), s[n], Sum(s));
    }
  }

  lemma ScaledPrefix(s: seq<real>, x: real, n: nat)
    requires n <= |s|
    ensures Scaled(s, x)[..n] == Scaled(s[..n], x)
  {
    var lhs, rhs := Scaled(s, x)[..n], Scaled(s[..n], x);
    forall k | 0 <= k < n ensures lhs[k] == rhs[k] {
      assert s[..n][k] == s[k];
    }
  }

  lemma NextMultiple(x: real, k: real, m: real)
    requires m == k + 1.0
    ensures m * x == k * x + x
  {
  }

  lemma Distribute(x: real, p: real, q: real, s: real)
    requires s == p + q
    ensures x * p + x * q == x * s
  {
  }

  /** A sequence whose every element is at most `x` sums to at most |s| x. */
  lemma {:induction false} SumBoundedBy(s: seq<real>, x: real)
    requires forall k :: 0 <= k < |s| ==> s[k] <= x
    ensures Sum(s) <= |s| as real * x
  {
    if |s| > 0 {
      var n := |s| - 1;
      SumBoundedBy(s[..n], x);
      NextMultiple(x, n as real, |s| as real);
    }
  }

  /** A sequence whose every element is at least `x` sums to at least |s| x. */
  lemma {:induction false} SumBoundedBelow(s: seq<real>, x: real)
    requires forall k :: 0 <= k < |s| ==> x <= s[k]
    ensures |s| as real * x <= Sum(s)
  {
    if |s| > 0 {
      var n := |s| - 1;
      SumBoundedBelow(s[..n], x);
      NextMultiple(x, n as real, |s| as real);
    }
  }

  /** The sum of a sequence whose every element is `x`. */
  lemma {:induction false} SumConst(w: seq<real>, x: real)
    requires forall k :: 0 <= k < |w| ==> w[k] == x
    ensures Sum(w) == |w| as real * x
  {
    if |w| > 0 {
      SumConst(w[..|w| - 1], x);
      NextMultiple(x, (|w| - 1) as real, |w| as real);
    }
  }
}

=== FILE: wrappers.dfy ===
/** Optional values and results with an error, used for the cells a table may
    leave missing and for the failures the analysis reports. */
module Wrappers {

  /** A value that may be absent: a missing table cell, or a statistic pandas
      reports as NaN. */
  datatype Option<+T> = None | Some(value: T)

  /** The outcome of an operation that can fail with an error. */
  datatype Result<+R, +E> = Success(value: R) | Failure(error: E)
}
